=== FILE: README.md ===
# Multi-room chat: client state, connection registry and endpoint logic in Dafny

This project models the logic of a small multi-room chat application. The backend is a
FastAPI WebSocket server and the frontend is a React single-page client. The model keeps the
decisions and the state changes; sockets, HTTP, timers and rendering are left out.

The model has five parts:

- **Client session** (`Session`, `RoomTable`, `Text`). The browser keeps a map from room code
  to entry (messages, `connected`, unread count, last-message preview), ordered like a
  JavaScript object's keys. Beside it sit the displayed room, a set of open sockets, the code
  from the shared link and the display name. The transitions are:
  - `connectToRoom` with its guards;
  - the socket callbacks `onopen`, `onmessage`, `onerror` and `onclose`;
  - `selectRoom`, `leaveRoom` and the `sendMessage` guard.

  The client stores the focused room twice. The React state `currentRoom` is what the page
  shows. The ref `currentRoomRef.current` is what the socket callbacks read. Both are modelled
  (`current` and `focusRef`). The already-connected branch of `connectToRoom` updates only the
  state and not the ref. The model keeps this as written, and `Session.RefocusCountsUnread`
  shows what follows: events for the displayed room keep counting as unread.
- **Date grouping** (`MessageGrouping`). `groupMessagesByDate` puts a date separator before
  each message that starts a new calendar day. The day of a timestamp is a function parameter.
- **Sidebar** (`Sidebar`). This is the view derived from the room map: the listed rooms, the
  header noun, the "No rooms joined" placeholder, the preview line and the unread badge capped
  at "99+".
- **Server connection registry** (`ConnectionRegistry`). It holds two maps, room to sockets and
  socket to (room, username), and the operations `connect`, `disconnect`,
  `broadcast_to_room` and `send_personal_message`. A send either reaches its socket or fails.
  The sockets whose sends fail during an operation are a parameter (`failed`). The registry invariant `Valid` says:
  - no room maps to an empty set;
  - every socket in a room's set is recorded with that room;
  - every recorded socket lies in its room's set.

  Every operation keeps this invariant, provided `connect` is never called twice for one
  socket.
- **HTTP queries and the WebSocket endpoint** (`RoomQueries`, `ChatEndpoint`):
  - room-code validation and the member listing;
  - the endpoint's username default;
  - the decision taken for each frame (a personal error, or a broadcast of the stripped
    content);
  - the final disconnect.

`Text.Trim` stands for both JavaScript `trim()` and Python `strip()`.

## Model

| member | source | states |
|---|---|---|
| `Text.Trim` | backend/main.py:62 | The stripped text is a contiguous slice of the input that starts right after the leading whitespace, with no whitespace at either end, and everything after it is whitespace. So exactly the leading and trailing whitespace is dropped. |
| `Text.TrimPadded` | backend/main.py:62 | An independent characterisation: a core that neither starts nor ends with whitespace, padded with whitespace on both sides, strips to exactly that core. |
| `Text.TrimEmptyIffBlank` | backend/main.py:62-65 | Stripping leaves nothing exactly when the text is all whitespace, so `not content` after `.strip()` is the blank test. |
| `Text.Take` | frontend/src/App.jsx:196 | `substring(0, n)` gives a prefix of the text with length `min(len, n)`. |
| `RoomTable.Put` | frontend/src/App.jsx:205-213 | Writing one key of the room map sets that entry and leaves every other entry as it was. A new key goes last in key order and an existing key keeps its place. |
| `RoomTable.Delete` | frontend/src/App.jsx:222-226 | Deleting a key removes only that entry, and the key order becomes the old order with that key filtered out. |
| `RoomTable.ConnectedKeys` | frontend/src/App.jsx:244-246 | The filter keeps exactly the connected keys other than the skipped one, in their original order and without duplicates. |
| `RoomTable.ConnectedKeysHead` | frontend/src/App.jsx:244-248 | The first filtered key is the earliest key in order that is connected and is not the leaving room. |
| `RoomTable.Successor` | frontend/src/App.jsx:244-253 | There is no successor exactly when no other room is connected. Otherwise the successor is a connected room other than the leaving one, and no earlier key qualifies. |
| `RoomTable.FocusAfter` | frontend/src/App.jsx:292-301 | The new focus is "" when no other room is connected. When one is, the new focus is a connected room other than the leaving one, and no earlier key in order qualifies. |
| `Session.Start` | frontend/src/App.jsx:112-121 | At mount nothing is joined or focused, no socket is recorded and the display name is empty. The `?room=` parameter is remembered as the link's code. |
| `Session.Preview` | frontend/src/App.jsx:194-197 | A chat message's preview is the prefix of `username: content` of length min(len, 50): the whole line when it fits, and exactly its first 50 characters otherwise. Another event's preview is its `message` when it has one; otherwise the previous preview is kept. |
| `Session.Receive` | frontend/src/App.jsx:188-215 | An event is appended to the end of its room's messages; an absent room is re-created as exactly `[event]`. The unread count becomes 0 if the room is the callbacks' focus, and otherwise the old count plus one, for every kind of event. Every other room, the focus, the sockets, the link's code and the display name are unchanged. The key order is kept, and a re-created room goes last. |
| `Session.ReceiveAllCounts` | frontend/src/App.jsx:199-203 | While the room is not focused, a run of n events raises its unread count by exactly n and appends the events in arrival order. No other room changes. |
| `Session.Join` | frontend/src/App.jsx:123-167 | The outcome is fixed by the guards in source order, in both directions:<br>• the outcome is "need a username" exactly when the username is blank, and "need a room code" exactly when the username is not blank and the code is;<br>• an already-connected code always ends in a refocus that only moves the displayed room, with no new entry or socket;<br>• when validation is needed, a rejected verdict ends in "invalid room" and an unreachable one in "validation failed", both changing nothing;<br>• validation is skipped only for the exact code from the link;<br>• otherwise (skipped or accepted) the join always opens the trimmed code, which gets a fresh disconnected entry (last in key order if it was absent). The other rooms, the focus, the sockets, the link's code and the display name are unchanged. |
| `Session.Open` | frontend/src/App.jsx:169-186 | On open, the room is marked connected and keeps its other fields. It takes the focus in both the state and the ref, and its socket is recorded. The link's code is cleared and the display name is overwritten. The key order is kept, and a room without an entry goes last. |
| `Session.Fail` | frontend/src/App.jsx:217-227 | On a socket error, the room's entry is deleted and its key is dropped from the key order. Other rooms, the focus, the sockets, the link's code and the display name are unchanged. |
| `Session.Close` | frontend/src/App.jsx:229-259 | On close, an existing entry is marked disconnected and keeps its history; an absent one is not re-created. If the room held the focus, the focus passes to the first other connected room, or to "". The socket is forgotten. The key order, the link's code and the display name are unchanged. |
| `Session.SuccessorIgnoresLeaving` | frontend/src/App.jsx:241-255 | Marking the closing room disconnected before choosing the successor does not change which room is chosen. |
| `Session.Leave` | frontend/src/App.jsx:276-303 | Leaving deletes the room's entry and socket. If the room held the focus, the focus passes to the first other connected room of the table as it was before the deletion, or to "". Otherwise the focus is unchanged. The key is dropped from the key order; the link's code and the display name are unchanged. |
| `Session.Select` | frontend/src/App.jsx:305-317 | Selecting a room focuses it in both the state and the ref and zeroes its unread count. It keeps the room's messages, connection flag and preview, and leaves every other room, the sockets, the link's code and the display name alone. The key order is kept, and a room without an entry goes last. |
| `Session.Send` | frontend/src/App.jsx:262-274 | A frame is sent exactly when a room is displayed, the input is not blank, that room has a socket and the socket is open. The frame carries the untrimmed input. |
| `Session.LeaveToOnlyOther` | frontend/src/App.jsx:290-297 | Leaving the focused room when exactly one other room is connected moves the focus to that room. |
| `Session.LeaveLastClearsFocus` | frontend/src/App.jsx:298-301 | Leaving the focused room when no other room is connected clears the focus. |
| `Session.CloseAfterLeave` | frontend/src/App.jsx:229-241 | The `onclose` that follows `leaveRoom` finds the entry gone and the focus moved on, so it changes nothing. |
| `Session.RefocusCountsUnread` | frontend/src/App.jsx:136-142 | After a join that only refocuses, the room is displayed but the callbacks' focus is stale. The next event for that room raises its unread count by one. |
| `MessageGrouping.DateKey` | frontend/src/App.jsx:443-447 | A missing timestamp has the empty day key; any other timestamp has the key of its calendar day. |
| `MessageGrouping.UndatedStartsDay` | frontend/src/App.jsx:443-447 | When no calendar day has an empty key, an undated message next to a dated one always opens a new day. |
| `MessageGrouping.GroupByDate` | frontend/src/App.jsx:449-474 | The one-pass walk with a remembered last date equals the reference grouping. Separators sit exactly before the messages that open a day and announce that day. Removing them gives back the input, no two are adjacent, and the length is n plus the number of day changes. |
| `MessageGrouping.MessagesOfGrouped` | frontend/src/App.jsx:466-470 | Removing the separators gives back the messages, in order. |
| `MessageGrouping.GroupedLength` | frontend/src/App.jsx:456-470 | The output length is the number of messages plus the number of messages whose day differs from their predecessor's, the first message included. |
| `MessageGrouping.GroupedPlacement` | frontend/src/App.jsx:453-464 | Every separator is followed by the message it announces, and that message opens a day. A message row is preceded by a separator exactly when the message opens a day. |
| `MessageGrouping.NoAdjacentSeparatorsInGrouped` | frontend/src/App.jsx:456-470 | No two separators are adjacent. |
| `MessageGrouping.TwoDaysExample` | frontend/src/App.jsx:449-474 | Three messages over two days give exactly two separators, one before each day's first message. |
| `Sidebar.JoinedRooms` | frontend/src/components/RoomSidebar.jsx:12-14 | The listed rooms are exactly the connected keys, in key order, each once. |
| `Sidebar.Noun` | frontend/src/components/RoomSidebar.jsx:22 | The header says "room" for exactly one joined room and "rooms" otherwise, zero included. |
| `Sidebar.BadgeLabel` | frontend/src/components/RoomSidebar.jsx:66 | A count above 99 reads "99+"; any other count reads as itself. |
| `Sidebar.Badge` | frontend/src/components/RoomSidebar.jsx:64-68 | The badge shows exactly when the unread count is positive and the room is not the displayed one. |
| `Sidebar.PreviewLine` | frontend/src/components/RoomSidebar.jsx:53-62 | The preview line shows exactly when the room has a non-empty preview. |
| `Sidebar.Render` | frontend/src/components/RoomSidebar.jsx:12-37 | There is one row per listed room, in order, with the right active flag, badge and preview. The header count equals the number of rows. The placeholder shows exactly when no room is connected, which is exactly when there are no rows. |
| `Sidebar.BadgeAfterReceive` | frontend/src/components/RoomSidebar.jsx:64-66 | An event for a joined room that is neither displayed nor focused shows that room's badge, one higher than before. |
| `Sidebar.ListedAfterOpen` | frontend/src/App.jsx:169-178 | After a room's socket opens, the room is listed as the active row, without a badge, and the placeholder is gone. |
| `Sidebar.UnlistedAfterLeave` | frontend/src/App.jsx:282-286 | A room that was left is no longer listed. |
| `ConnectionRegistry.Register` | backend/connection_manager.py:26-30 | After registration the socket is in its room's set (the set is created if absent) and is recorded with (room, username). Every other room and record is unchanged. |
| `ConnectionRegistry.RegisterValid` | backend/connection_manager.py:15-30 | Registering a socket the registry does not yet know keeps the two maps consistent. |
| `ConnectionRegistry.Disconnect` | backend/connection_manager.py:54-79 | An unknown socket is ignored. Otherwise the socket leaves its room's set and its record is dropped; every other socket keeps its record. The room is deleted exactly when that leaves it empty, and a `user_left` notice is scheduled exactly when the room still has sockets. |
| `ConnectionRegistry.DisconnectRemoves` | backend/connection_manager.py:57-67 | On a consistent registry, a disconnect removes exactly that socket and keeps the maps consistent. |
| `ConnectionRegistry.DisconnectIdempotent` | backend/connection_manager.py:57 | A second disconnect of the same socket does nothing. |
| `ConnectionRegistry.WithoutValid` | backend/connection_manager.py:60-67 | Removing any set of sockets, and deleting the rooms this empties, keeps the registry consistent. |
| `ConnectionRegistry.DisconnectAll` | backend/connection_manager.py:103-105 | Disconnecting the failed sockets one by one, in any order, removes exactly that set and keeps the registry consistent. Only `user_left` notices are scheduled. |
| `ConnectionRegistry.Broadcast` | backend/connection_manager.py:81-105 | The given payload is what is delivered. An absent room receives nothing and nothing changes. Otherwise the recipients are the room's sockets, minus the excluded one and the failed ones, and exactly the failed addressees are disconnected afterwards. |
| `ConnectionRegistry.SendPersonal` | backend/connection_manager.py:107-113 | A successful send changes nothing and schedules nothing; a failed send is exactly a `disconnect` of that socket, `user_left` notice included. Its partner is `WelcomeRemoves`. |
| `ConnectionRegistry.WelcomeRemoves` | backend/connection_manager.py:107-113 | A personal send either leaves the registry as it was or removes exactly the failed socket. |
| `ConnectionRegistry.Connect` | backend/connection_manager.py:21-52 | The welcome is a `system` message "Welcome to room R! You joined as U." and reaches the newcomer unless its send fails. The `user_joined` notice carries the username and "U joined the chat"; it never reaches the newcomer, and reaches exactly the sockets already in the room whose sends succeed. The registry stays consistent, and a newcomer whose sends succeed ends up registered in its room. |
| `ConnectionRegistry.ConnectSteps` | backend/connection_manager.py:42-52 | After the welcome, the room minus the newcomer is exactly the room's earlier sockets. Removing the failed ones in two rounds is the same as removing them all at once. |
| `RoomQueries.ValidateRoom` | backend/routers/room.py:10-25 | A code is valid exactly when it is not blank. A valid answer reports whether the room has connections; an invalid one has no `active` field. |
| `RoomQueries.GetRoomMembers` | backend/routers/room.py:28-54 | An absent room gives no members and a total of 0. Otherwise the answer has one active member per socket of the room whose record names the room, no socket twice, and `total` equals the number of members. |
| `RoomQueries.TotalIsRoomSize` | backend/routers/room.py:41-48 | On a consistent registry every socket of the room is listed, so the total is the size of the room's set. |
| `ChatEndpoint.Content` | backend/main.py:62 | A missing `content` field reads as ""; a present one is the string it holds. |
| `ChatEndpoint.SessionUsername` | backend/main.py:40 | The username is the query parameter when it is present and "Anonymous" only when it is missing. |
| `ChatEndpoint.Decide` | backend/main.py:48-86 | Unparseable text yields a personal "Invalid message format" error. Missing or blank content yields a personal "Message cannot be empty." error. Anything else is published under the connection's username with stripped content, which is non-empty with no whitespace at either end. |
| `ChatEndpoint.Deliver` | backend/main.py:52-86 | A reply goes to the sender alone, and a failed send disconnects it. A publication goes to the whole room, sender included, less the failed sockets, which are disconnected. A registered sender whose sends succeed receives the outcome and stays registered. |
| `ChatEndpoint.ReceiveLoop` | backend/main.py:44-86 | Frames are handled in order, one step per frame, with that frame's decision. A reply reaches exactly the sender unless its send fails. A publication reaches exactly the room's sockets, as registered when the frame arrives, less those whose sends fail. The registry each frame finds is the one the previous frame left: a reply moves it as a personal send does, and a publication removes exactly the room's sockets whose sends failed. Only `user_left` notices are scheduled. A registered sender whose sends succeed for every frame receives every outcome and stays registered. The failing sockets may differ from frame to frame. |
| `ChatEndpoint.Serve` | backend/main.py:35-89 | The first frame finds the registry `connect` leaves: the socket registered with its room and session username, less the sockets whose sends failed. Each later frame finds the registry the previous frame left, as in the receive loop. The final disconnect removes exactly this socket from the registry the last frame left. Each step carries the frame's decision under the session username. A reply reaches the sender alone; a publication reaches the room as registered when the frame arrives, sender included, less the failed sockets. A sender whose sends succeed receives every outcome, the registry stays consistent, and only `user_left` notices are scheduled. |

## Left out

- Socket and HTTP I/O (`new WebSocket`, `fetch`, `send`, `accept`, `receive_text`) is not modelled. Outcomes of I/O are parameters instead:
  - the validation verdict;
  - whether a socket is open;
  - the set of sockets whose sends fail, given per operation (per frame in the receive loop).
- Browser side effects are not modelled: `alert`, `history.pushState`, clipboard copy, scrolling and its timers, and all markup.
- The dialog and input fields (`showJoinDialog`, `roomCode`, `messageInput`, `isValidatingRoom`, `roomValidationError`) are UI state and are not modelled.
- `formatTime`, `formatDate` and `getAvatarColor` are cosmetic and depend on the locale or on float arithmetic, so they are left out. `getDateKey` is a function parameter; a missing timestamp maps to "".
- frontend/src/components/RoomMembersModal.jsx is not part of this model. It is polling plus fetch plus markup.
- backend/utils.py is not part of this model. It is a wall clock. Timestamps and the message `id` (a random UUID) are not modelled.
- Asynchronous interleaving is not modelled:
  - awaits inside the broadcast loop;
  - `asyncio.create_task` for `user_left`, which is returned as a scheduled notice and not executed;
  - React state batching.

  Every operation is one atomic step. `leaveRoom` reads the table from before its own deletion, as the source does.
- JavaScript enumerates integer-like object keys first, in ascending order. The model orders all keys by insertion.
- `selectRoom` or `onopen` on a room without an entry creates one whose `messages` field is missing in JavaScript, so the next event would throw. The model uses an empty list.
- `Session.Preview`: counts characters, not UTF-16 code units, when it truncates to 50.
- `Text.Trim`: strips only space, tab, line feed, carriage return, vertical tab and form feed. It does not strip the other Unicode whitespace that `trim()` and `strip()` remove.
- `ChatEndpoint.Serve`: requires every frame to be unparseable text or an object whose `content` is absent or a string. Other frames make `.get`/`.strip()` raise, which ends the handler without `disconnect`, and that path is not modelled. The model always ends with a disconnect, since the frame sequence is finite.
- `ChatEndpoint.Deliver`: the payload text is the decision; the timestamp and `id` fields of the sent JSON are not modelled.
- `ConnectionRegistry.Connect`: the `system` and `user_joined` payloads carry their type, username and message text; their `timestamp` fields are not modelled.
- `ConnectionRegistry.Connect`: states its registry results only for a socket that is not yet registered. A second `connect` of the same socket breaks the registry invariant in the source too.
- `RoomQueries.GetRoomMembers`: the order of members is the set's iteration order, which Python leaves unspecified. The model states membership and count, not order.
- The CORS setup and the root `/` endpoint of backend/main.py are not modelled.

=== FILE: chat_endpoint.dfy ===
/**
  The WebSocket endpoint of backend/main.py: the username taken from the query string, the
  registration through `connect`, the per-frame decision of the receive loop, and the
  `disconnect` when the client goes away.
*/
module ChatEndpoint {
  import opened Common
  import opened Text
  import opened ConnectionRegistry

  const DefaultUsername: string := "Anonymous"
  const InvalidFormat: string := "Invalid message format. Please send valid JSON."
  const EmptyMessage: string := "Message cannot be empty."

  /** A JSON value, as far as the endpoint looks at it: a string or anything else. */
  datatype Json = JString(s: string) | JOther

  /** What `json.loads` made of one text frame. */
  datatype Frame = Unparseable | Object(fields: map<string, Json>) | NonObject

  /**
    Frames the loop handles without raising: unparseable text, or an object whose `content`
    is absent or a string. Any other frame makes `.get` or `.strip()` raise, which ends the
    handler without the `disconnect` call.
  */
  predicate Handled(f: Frame) {
    f.Unparseable? || (f.Object? && ("content" !in f.fields || f.fields["content"].JString?))
  }

  /** `message_data.get("content", "")`. */
  function Content(f: Frame): (c: string)
    requires Handled(f) && f.Object?
    ensures "content" !in f.fields ==> c == ""
    ensures "content" in f.fields ==> f.fields["content"] == JString(c)
  {
    if "content" in f.fields then f.fields["content"].s else ""
  }

  /** `query_params.get("username", "Anonymous")`: only a missing parameter falls back. */
  function SessionUsername(query: Option<string>): (u: string)
    ensures query.None? ==> u == DefaultUsername
    ensures query.Some? ==> u == query.value
  {
    query.GetOr(DefaultUsername)
  }

  /** One frame's effect: an error for the sender only, or a chat message for the whole room. */
  datatype Decision = Reply(payload: Payload) | Publish(payload: Payload)

  /**
    The body of the receive loop for one frame: unparseable text and a blank `content` are
    answered with an error to the sender alone; anything else is published, content stripped,
    under the connection's username.
  */
  function Decide(username: string, f: Frame): (d: Decision)
    requires Handled(f)
    ensures f.Unparseable? ==> d == Reply(Error(InvalidFormat))
    ensures f.Object? && Blank(Content(f)) ==> d == Reply(Error(EmptyMessage))
    ensures f.Object? && !Blank(Content(f)) ==> d == Publish(Chat(username, Trim(Content(f))))
    ensures d.Publish? ==>
      && d.payload.Chat? && d.payload.content != ""
      && !IsSpace(d.payload.content[0]) && !IsSpace(d.payload.content[|d.payload.content| - 1])
  {
    if f.Unparseable? then Reply(Error(InvalidFormat))
    else
      var content := Trim(Content(f));
      TrimEmptyIffBlank(Content(f));
      if content == "" then Reply(Error(EmptyMessage))
      else Publish(Chat(username, content))
  }

  /** What one frame led to: the decision and the sockets that received its payload. */
  datatype Step = Step(decision: Decision, recipients: set<SocketId>)

  /**
    How carrying out decision `d` moves the registry from `before` to `after`: a reply is a
    personal send, and on a consistent registry a publication removes exactly the room's
    sockets whose sends fail.
  */
  predicate Advances(before: Registry, after: Registry, ws: SocketId, room: string, d: Decision, failed: set<SocketId>) {
    && (d.Reply? ==> after == SendPersonal(before, ws, failed).reg)
    && (Valid(before) && d.Publish? ==> after == Without(before, Members(before, room) * failed))
  }

  /**
    Carrying out one frame's decision for socket `ws` of `room`: a reply goes to the sender
    alone (a failed send disconnects it); a publication is broadcast to the room (failed sends
    disconnect those sockets). While the sender is registered and its sends succeed, it
    receives the outcome either way and stays registered.
  */
  method Deliver(reg: Registry, ws: SocketId, room: string, d: Decision, failed: set<SocketId>)
    returns (r: Registry, step: Step, notices: seq<Notice>)
    ensures step.decision == d
    ensures d.Reply? ==> step.recipients == {ws} - failed
    ensures d.Reply? ==> r == SendPersonal(reg, ws, failed).reg
    ensures d.Publish? ==> step.recipients == Members(reg, room) - failed
    ensures Valid(reg) ==> Valid(r)
    ensures Valid(reg) && d.Publish? ==> r == Without(reg, Members(reg, room) * failed)
    ensures Valid(reg) && ws in reg.info && reg.info[ws].room == room && ws !in failed ==>
      ws in r.info && r.info[ws].room == room && ws in step.recipients
    ensures Advances(reg, r, ws, room, d, failed)
    ensures OnlyLeaves(notices)
  {
    if d.Reply? {
      var left := SendPersonal(reg, ws, failed);
      if Valid(reg) {
        DisconnectRemoves(reg, ws);
      }
      r := left.reg;
      step := Step(d, {ws} - failed);
      notices := if left.notice.Some? then [left.notice.value] else [];
    } else {
      var sent;
      assert Audience(reg, room, None) == Members(reg, room);
      r, sent, notices := Broadcast(reg, room, d.payload, None, failed);
      step := Step(d, sent.recipients);
    }
  }

  /**
    The receive loop over the decisions taken for the frames a client sends before it goes
    away, in order; `failed[i]` holds the sockets whose sends fail while frame `i` is handled,
    and `regs[i]` is the registry frame `i` finds. A reply reaches the sender alone; a
    publication reaches the room as it is when the frame arrives. A sender that is registered
    and whose sends succeed receives every outcome and stays registered throughout.
  */
  method ReceiveLoop(reg: Registry, ws: SocketId, room: string, decisions: seq<Decision>, failed: seq<set<SocketId>>)
    returns (r: Registry, steps: seq<Step>, notices: seq<Notice>, ghost regs: seq<Registry>)
    requires |failed| == |decisions|
    ensures Valid(reg) ==> Valid(r)
    ensures |steps| == |decisions|
    ensures |regs| == |decisions| + 1 && regs[0] == reg && regs[|decisions|] == r
    ensures forall i :: 0 <= i < |decisions| ==> steps[i].decision == decisions[i]
    ensures forall i :: 0 <= i < |decisions| && decisions[i].Reply? ==> steps[i].recipients == {ws} - failed[i]
    ensures forall i :: 0 <= i < |decisions| && decisions[i].Publish? ==>
      steps[i].recipients == Members(regs[i], room) - failed[i]
    ensures Valid(reg) ==> forall i :: 0 <= i < |regs| ==> Valid(regs[i])
    ensures forall i :: 0 <= i < |decisions| ==> Advances(regs[i], regs[i + 1], ws, room, decisions[i], failed[i])
    ensures OnlyLeaves(notices)
    ensures (&& Valid(reg) && ws in reg.info && reg.info[ws].room == room
             && forall i :: 0 <= i < |failed| ==> ws !in failed[i]) ==>
      && ws in r.info && r.info[ws].room == room
      && forall i :: 0 <= i < |decisions| ==> ws in steps[i].recipients
  {
    r := reg;
    steps := [];
    notices := [];
    regs := [reg];
    ghost var live := (&& Valid(reg) && ws in reg.info && reg.info[ws].room == room
                       && forall i :: 0 <= i < |failed| ==> ws !in failed[i]);
    for i := 0 to |decisions|
      invariant Valid(reg) ==> Valid(r)
      invariant live ==> ws in r.info && r.info[ws].room == room
      invariant |steps| == i
      invariant |regs| == i + 1 && regs[0] == reg && regs[i] == r
      invariant forall j :: 0 <= j < i ==> steps[j].decision == decisions[j]
      invariant forall j :: 0 <= j < i && decisions[j].Reply? ==> steps[j].recipients == {ws} - failed[j]
      invariant forall j :: 0 <= j < i && decisions[j].Publish? ==>
        steps[j].recipients == Members(regs[j], room) - failed[j]
      invariant Valid(reg) ==> forall j :: 0 <= j <= i ==> Valid(regs[j])
      invariant forall j :: 0 <= j < i ==> Advances(regs[j], regs[j + 1], ws, room, decisions[j], failed[j])
      invariant OnlyLeaves(notices)
      invariant live ==> forall j :: 0 <= j < i ==> ws in steps[j].recipients
    {
      var step, more;
      r, step, more := Deliver(r, ws, room, decisions[i], failed[i]);
      steps := steps + [step];
      notices := notices + more;
      regs := regs + [r];
    }
  }

  /**
    `websocket_endpoint` for one client: register it, run the receive loop, and disconnect it
    when it goes away. A reply goes to the sender alone; a published message goes to the whole
    room, sender included. `joinFailed` holds the sockets whose sends fail during `connect`,
    and `frameFailed[i]` those whose sends fail while frame `i` is handled; `regs[i]` is the
    registry frame `i` finds.
  */
  method Serve(reg: Registry, ws: SocketId, room: string, query: Option<string>,
               frames: seq<Frame>, joinFailed: set<SocketId>, frameFailed: seq<set<SocketId>>)
    returns (r: Registry, steps: seq<Step>, notices: seq<Notice>, ghost regs: seq<Registry>)
    requires forall i :: 0 <= i < |frames| ==> Handled(frames[i])
    requires |frameFailed| == |frames|
    ensures ws !in r.info
    ensures Valid(reg) && ws !in reg.info ==> Valid(r)
    ensures |steps| == |frames| && |regs| == |frames| + 1
    ensures Valid(reg) && ws !in reg.info ==>
      regs[0] == Without(Register(reg, ws, room, SessionUsername(query)), (Members(reg, room) + {ws}) * joinFailed)
    ensures Valid(reg) && ws !in reg.info ==> r == Without(regs[|frames|], {ws})
    ensures Valid(reg) && ws !in reg.info ==> forall i :: 0 <= i < |regs| ==> Valid(regs[i])
    ensures forall i :: 0 <= i < |frames| ==>
      Advances(regs[i], regs[i + 1], ws, room, steps[i].decision, frameFailed[i])
    ensures OnlyLeaves(notices)
    ensures Valid(reg) && ws !in reg.info && ws !in joinFailed ==>
      ws in regs[0].info && regs[0].info[ws] == Conn(room, SessionUsername(query)) && ws in Members(regs[0], room)
    ensures forall i :: 0 <= i < |frames| ==> steps[i].decision == Decide(SessionUsername(query), frames[i])
    ensures forall i :: 0 <= i < |frames| && steps[i].decision.Reply? ==> steps[i].recipients == {ws} - frameFailed[i]
    ensures forall i :: 0 <= i < |frames| && steps[i].decision.Publish? ==>
      steps[i].recipients == Members(regs[i], room) - frameFailed[i]
    ensures (&& Valid(reg) && ws !in reg.info && ws !in joinFailed
             && forall i :: 0 <= i < |frames| ==> ws !in frameFailed[i]) ==>
      forall i :: 0 <= i < |frames| ==> ws in steps[i].recipients
  {
    var username := SessionUsername(query);
    var decisions := seq(|frames|, i requires 0 <= i < |frames| => Decide(username, frames[i]));
    var welcome, joined, connected, more;
    connected, welcome, joined, notices := Connect(reg, ws, room, username, joinFailed);
    r, steps, more, regs := ReceiveLoop(connected, ws, room, decisions, frameFailed);
    notices := notices + more;
    var left := Disconnect(r, ws);
    if Valid(reg) && ws !in reg.info {
      DisconnectRemoves(r, ws);
    }
    r := left.reg;
    notices := notices + if left.notice.Some? then [left.notice.value] else [];
  }
}

=== FILE: common.dfy ===
/** Small shared vocabulary: optional values and duplicate-free sequences. */
module Common {

  /** A value that may be absent (JavaScript `null`/`undefined`, a missing JSON field). */
  datatype Option<+T> = None | Some(value: T) {

    /** The wrapped value, or `default` when absent (the `x || d` / `dict.get(k, d)` idiom). */
    function GetOr(default: T): T {
      match this
      case Some(v) => v
      case None => default
    }
  }

  /** No element occurs twice in `s`. */
  predicate Distinct<T(==)>(s: seq<T>) {
    forall i, j :: 0 <= i < j < |s| ==> s[i] != s[j]
  }

  /** Appending an element that does not yet occur keeps a sequence duplicate-free. */
  lemma DistinctAppend<T>(s: seq<T>, x: T)
    requires Distinct(s) && x !in s
    ensures Distinct(s + [x])
  {
  }

  /** A duplicate-free sequence has as many distinct elements as positions. */
  lemma {:induction false} DistinctCardinality<T>(s: seq<T>)
    requires Distinct(s)
    ensures |set x | x in s| == |s|
    decreases |s|
  {
    if s != [] {
      var t := s[..|s| - 1];
      DistinctCardinality(t);
      assert (set x | x in s) == (set x | x in t) + {s[|s| - 1]};
    }
  }
}

=== FILE: connection_registry.dfy ===
/**
  The server's connection registry (backend/connection_manager.py): which sockets are in
  which room, and which room and username each socket joined with. Sockets are opaque ids;
  a send either reaches its socket or fails, and the sockets whose sends fail during one
  operation are given as the set `failed`.
*/
module ConnectionRegistry {
  import opened Common

  /** An accepted WebSocket, by identity only. */
  type SocketId = nat

  /** `connection_info[ws]`: the room and username a socket joined with. */
  datatype Conn = Conn(room: string, username: string)

  /** `active_connections` (room -> sockets) and `connection_info` (socket -> Conn). */
  datatype Registry = Registry(active: map<string, set<SocketId>>, info: map<SocketId, Conn>)

  const Empty: Registry := Registry(map[], map[])

  /** A JSON message the server sends; timestamps and message ids are left out. */
  datatype Payload =
    | System(message: string)
    | UserJoined(username: string, message: string)
    | UserLeft(username: string, message: string)
    | Chat(username: string, content: string)
    | Error(message: string)

  /** A broadcast handed to `asyncio.create_task`: it runs later, against the registry as it is then. */
  datatype Notice = Notice(room: string, payload: Payload)

  /** The registry after a step, and the broadcast that step scheduled, if any. */
  datatype Outcome = Outcome(reg: Registry, notice: Option<Notice>)

  /** One payload sent at once, and the sockets whose send succeeded. */
  datatype Delivery = Delivery(payload: Payload, recipients: set<SocketId>)

  /** Every scheduled notice is a `user_left` broadcast. */
  predicate OnlyLeaves(notices: seq<Notice>) {
    forall i :: 0 <= i < |notices| ==> notices[i].payload.UserLeft?
  }

  function WelcomeText(room: string, username: string): string {
    "Welcome to room " + room + "! You joined as " + username + "."
  }

  function JoinedText(username: string): string {
    username + " joined the chat"
  }

  function LeftText(username: string): string {
    username + " left the chat"
  }

  /**
    The two maps agree: no room maps to an empty set, every socket of a room records that
    room, and every recorded socket lies in its room's set.
  */
  predicate Valid(reg: Registry) {
    && (forall r :: r in reg.active ==> reg.active[r] != {})
    && (forall r, ws :: r in reg.active && ws in reg.active[r] ==> ws in reg.info && reg.info[ws].room == r)
    && (forall ws :: ws in reg.info ==> reg.info[ws].room in reg.active && ws in reg.active[reg.info[ws].room])
  }

  /** The sockets currently in `room` (none for an absent room). */
  function Members(reg: Registry, room: string): set<SocketId> {
    if room in reg.active then reg.active[room] else {}
  }

  /**
    Reference for removals: `reg` with the sockets `gone` taken out of both maps and every room
    left without sockets deleted.
  */
  function Without(reg: Registry, gone: set<SocketId>): (r: Registry)
    ensures forall ws :: ws in r.info <==> ws in reg.info && ws !in gone
    ensures forall ws :: ws in r.info ==> r.info[ws] == reg.info[ws]
  {
    Registry(map q | q in reg.active && reg.active[q] - gone != {} :: reg.active[q] - gone, reg.info - gone)
  }

  /** Removing sockets keeps the two maps consistent. */
  lemma WithoutValid(reg: Registry, gone: set<SocketId>)
    requires Valid(reg)
    ensures Valid(Without(reg, gone))
  {
    var w := Without(reg, gone);
    forall q, ws | q in w.active && ws in w.active[q]
      ensures ws in w.info && w.info[ws].room == q
    {
      assert ws in reg.active[q] && ws !in gone;
    }
    forall ws | ws in w.info
      ensures w.info[ws].room in w.active && ws in w.active[w.info[ws].room]
    {
      var q := reg.info[ws].room;
      assert ws in reg.active[q] - gone;
    }
  }

  /** Removing two batches one after the other removes their union. */
  lemma WithoutTwice(reg: Registry, a: set<SocketId>, b: set<SocketId>)
    ensures Without(Without(reg, a), b) == Without(reg, a + b)
  {
    var l := Without(Without(reg, a), b);
    var r := Without(reg, a + b);
    forall q | q in reg.active
      ensures reg.active[q] - a - b == reg.active[q] - (a + b)
    {
    }
    assert l.active == r.active;
    assert l.info == r.info;
  }

  /** Removing sockets removes them from every room's membership. */
  lemma MembersWithout(reg: Registry, gone: set<SocketId>, room: string)
    ensures Members(Without(reg, gone), room) == Members(reg, room) - gone
  {
  }

  /** Removing sockets the registry does not know leaves a consistent registry as it is. */
  lemma WithoutUnknown(reg: Registry, gone: set<SocketId>)
    requires Valid(reg)
    requires forall ws :: ws in gone ==> ws !in reg.info
    ensures Without(reg, gone) == reg
  {
    var w := Without(reg, gone);
    forall q | q in reg.active
      ensures reg.active[q] - gone == reg.active[q]
    {
    }
    assert w.active == reg.active;
    assert w.info == reg.info;
  }

  /**
    The registration step of `connect`: the socket joins its room's set (created when absent) and its
    room and username are recorded; every other room is untouched.
  */
  function Register(reg: Registry, ws: SocketId, room: string, username: string): (r: Registry)
    ensures room in r.active && r.active[room] == Members(reg, room) + {ws}
    ensures ws in r.info && r.info[ws] == Conn(room, username)
    ensures forall q :: q != room ==> Members(r, q) == Members(reg, q) && (q in r.active <==> q in reg.active)
    ensures forall s :: s != ws ==> (s in r.info <==> s in reg.info)
    ensures forall s :: s != ws && s in reg.info ==> r.info[s] == reg.info[s]
  {
    var sockets := if room in reg.active then reg.active[room] else {};
    Registry(reg.active[room := sockets + {ws}], reg.info[ws := Conn(room, username)])
  }

  /**
    `disconnect`: a socket with no recorded connection is ignored. Otherwise it leaves its
    room's set, the room is deleted if that empties it, its record is dropped, and a
    `user_left` broadcast is scheduled only when the room still has sockets.
  */
  function Disconnect(reg: Registry, ws: SocketId): (r: Outcome)
    ensures ws !in reg.info ==> r == Outcome(reg, None)
    ensures ws !in r.reg.info
    ensures forall s :: s != ws ==> (s in r.reg.info <==> s in reg.info)
    ensures forall s :: s != ws && s in reg.info ==> r.reg.info[s] == reg.info[s]
    ensures ws in reg.info ==>
      var c := reg.info[ws];
      && Members(r.reg, c.room) == Members(reg, c.room) - {ws}
      && (c.room in r.reg.active <==> Members(reg, c.room) - {ws} != {})
      && (forall q :: q != c.room ==> Members(r.reg, q) == Members(reg, q) && (q in r.reg.active <==> q in reg.active))
      && (r.notice.Some? <==> c.room in r.reg.active)
      && (r.notice.Some? ==> r.notice.value == Notice(c.room, UserLeft(c.username, LeftText(c.username))))
  {
    if ws !in reg.info then Outcome(reg, None)
    else
      var c := reg.info[ws];
      var active :=
        if c.room !in reg.active then reg.active
        else if reg.active[c.room] - {ws} == {} then reg.active - {c.room}
        else reg.active[c.room := reg.active[c.room] - {ws}];
      var notice := if c.room in active
        then Some(Notice(c.room, UserLeft(c.username, LeftText(c.username))))
        else None;
      Outcome(Registry(active, reg.info - {ws}), notice)
  }

  /** On a consistent registry, `disconnect` removes exactly the one socket and keeps the maps consistent. */
  lemma DisconnectRemoves(reg: Registry, ws: SocketId)
    requires Valid(reg)
    ensures Disconnect(reg, ws).reg == Without(reg, {ws})
    ensures Valid(Disconnect(reg, ws).reg)
  {
    var r := Disconnect(reg, ws).reg;
    var w := Without(reg, {ws});
    if ws !in reg.info {
      WithoutUnknown(reg, {ws});
    } else {
      var c := reg.info[ws];
      forall q | q in reg.active && q != c.room
        ensures reg.active[q] - {ws} == reg.active[q]
      {
        assert ws !in reg.active[q];
      }
      assert r.active.Keys == w.active.Keys;
      assert r.active == w.active;
    }
    WithoutValid(reg, {ws});
  }

  /** Registering a socket the registry does not know yet keeps the two maps consistent. */
  lemma RegisterValid(reg: Registry, ws: SocketId, room: string, username: string)
    requires Valid(reg) && ws !in reg.info
    ensures Valid(Register(reg, ws, room, username))
  {
  }

  /** Disconnecting twice: the second call finds nothing to do. */
  lemma DisconnectIdempotent(reg: Registry, ws: SocketId)
    ensures var once := Disconnect(reg, ws).reg; Disconnect(once, ws) == Outcome(once, None)
  {
  }

  /**
    The clean-up loop of `broadcast_to_room`: every socket of `gone` is
    disconnected, in whatever order the set yields them; each may schedule a `user_left`.
  */
  method DisconnectAll(reg: Registry, gone: set<SocketId>) returns (r: Registry, notices: seq<Notice>)
    ensures Valid(reg) ==> Valid(r) && r == Without(reg, gone)
    ensures OnlyLeaves(notices)
  {
    r := reg;
    notices := [];
    var remaining := gone;
    ghost var done: set<SocketId> := {};
    if Valid(reg) {
      WithoutUnknown(reg, {});
    }
    while remaining != {}
      invariant done + remaining == gone
      invariant Valid(reg) ==> r == Without(reg, done) && Valid(r)
      invariant OnlyLeaves(notices)
      decreases remaining
    {
      var ws :| ws in remaining;
      var left := Disconnect(r, ws);
      if Valid(reg) {
        DisconnectStep(reg, done, ws);
      }
      r := left.reg;
      if left.notice.Some? {
        notices := notices + [left.notice.value];
      }
      remaining := remaining - {ws};
      done := done + {ws};
    }
  }

  /** Disconnecting one more socket from a registry with a batch removed removes the larger batch. */
  lemma DisconnectStep(reg: Registry, done: set<SocketId>, ws: SocketId)
    requires Valid(reg)
    ensures Disconnect(Without(reg, done), ws).reg == Without(reg, done + {ws})
    ensures Valid(Without(reg, done + {ws}))
  {
    WithoutValid(reg, done);
    DisconnectRemoves(Without(reg, done), ws);
    WithoutTwice(reg, done, {ws});
    WithoutValid(reg, done + {ws});
  }

  /** Who a broadcast is addressed to: the room's sockets, less the excluded one. */
  function Audience(reg: Registry, room: string, exclude: Option<SocketId>): set<SocketId> {
    Members(reg, room) - if exclude.Some? then {exclude.value} else {}
  }

  /**
    `broadcast_to_room`: an absent room gets nothing. Otherwise every socket of the room but
    the excluded one is sent the payload; those whose send fails are disconnected afterwards.
  */
  method Broadcast(reg: Registry, room: string, payload: Payload, exclude: Option<SocketId>, failed: set<SocketId>)
    returns (r: Registry, sent: Delivery, notices: seq<Notice>)
    ensures sent.payload == payload
    ensures room !in reg.active ==> r == reg && sent.recipients == {} && notices == []
    ensures sent.recipients == Audience(reg, room, exclude) - failed
    ensures Valid(reg) ==> Valid(r) && r == Without(reg, Audience(reg, room, exclude) * failed)
    ensures OnlyLeaves(notices)
  {
    if room !in reg.active {
      assert Audience(reg, room, exclude) * failed == {};
      if Valid(reg) {
        WithoutUnknown(reg, {});
      }
      return reg, Delivery(payload, {}), [];
    }
    var targets := Audience(reg, room, exclude);
    sent := Delivery(payload, targets - failed);
    r, notices := DisconnectAll(reg, targets * failed);
  }

  /** `send_personal_message`: a failed send disconnects the socket. */
  function SendPersonal(reg: Registry, ws: SocketId, failed: set<SocketId>): (r: Outcome)
    ensures ws !in failed ==> r == Outcome(reg, None)
    ensures ws in failed ==> r == Disconnect(reg, ws)
  {
    if ws in failed then Disconnect(reg, ws) else Outcome(reg, None)
  }

  /**
    `connect` after the handshake: register the socket, welcome it alone with a `system`
    message, then send the rest of the room a `user_joined` notice. The welcome reaches the
    newcomer unless its send fails; the notice goes to the sockets already in the room, never
    to the newcomer.
  */
  method Connect(reg: Registry, ws: SocketId, room: string, username: string, failed: set<SocketId>)
    returns (r: Registry, welcome: Delivery, joined: Delivery, notices: seq<Notice>)
    ensures welcome == Delivery(System(WelcomeText(room, username)), {ws} - failed)
    ensures joined.payload == UserJoined(username, JoinedText(username))
    ensures ws !in joined.recipients
    ensures OnlyLeaves(notices)
    ensures Valid(reg) && ws !in reg.info ==>
      && joined.recipients == Members(reg, room) - failed
      && Valid(r)
      && r == Without(Register(reg, ws, room, username), (Members(reg, room) + {ws}) * failed)
    ensures Valid(reg) && ws !in reg.info && ws !in failed ==>
      ws in r.info && r.info[ws] == Conn(room, username) && room in r.active && ws in r.active[room]
  {
    var reg1 := Register(reg, ws, room, username);
    var personal := SendPersonal(reg1, ws, failed);
    welcome := Delivery(System(WelcomeText(room, username)), {ws} - failed);
    notices := if personal.notice.Some? then [personal.notice.value] else [];
    var more;
    if Valid(reg) && ws !in reg.info {
      RegisterValid(reg, ws, room, username);
      assert ws !in Members(reg, room);
      ConnectSteps(reg, ws, room, username, failed);
    }
    r, joined, more := Broadcast(personal.reg, room, UserJoined(username, JoinedText(username)), Some(ws), failed);
    notices := notices + more;
  }

  /** After the welcome, the room's other sockets are exactly those there before the newcomer. */
  lemma ConnectSteps(reg: Registry, ws: SocketId, room: string, username: string, failed: set<SocketId>)
    requires ws !in Members(reg, room)
    requires Valid(Register(reg, ws, room, username))
    ensures var reg1 := Register(reg, ws, room, username);
      var welcome := SendPersonal(reg1, ws, failed).reg;
      && Valid(welcome)
      && Audience(welcome, room, Some(ws)) == Members(reg, room)
      && Without(welcome, Members(reg, room) * failed)
         == Without(reg1, (Members(reg, room) + {ws}) * failed)
  {
    var reg1 := Register(reg, ws, room, username);
    WelcomeRemoves(reg1, ws, failed);
    AfterWelcome(reg1, ws, room, Members(reg, room), failed);
  }

  /** Removing the newcomer first, if it failed, and then the failed earlier members, removes all the failed ones. */
  lemma AfterWelcome(reg1: Registry, ws: SocketId, room: string, others: set<SocketId>, failed: set<SocketId>)
    requires ws !in others && Members(reg1, room) == others + {ws}
    ensures var welcome := Without(reg1, if ws in failed then {ws} else {});
      && Audience(welcome, room, Some(ws)) == others
      && Without(welcome, others * failed) == Without(reg1, (others + {ws}) * failed)
  {
    var first := if ws in failed then {ws} else {};
    MembersWithout(reg1, first, room);
    WithoutTwice(reg1, first, others * failed);
    assert (others + {ws}) * failed == first + others * failed;
  }

  /** The welcome either reaches the newcomer or removes it, and nothing else. */
  lemma WelcomeRemoves(reg: Registry, ws: SocketId, failed: set<SocketId>)
    requires Valid(reg)
    ensures SendPersonal(reg, ws, failed).reg == Without(reg, if ws in failed then {ws} else {})
    ensures Valid(SendPersonal(reg, ws, failed).reg)
  {
    if ws !in failed {
      WithoutUnknown(reg, {});
    } else {
      DisconnectRemoves(reg, ws);
    }
  }
}

=== FILE: message_grouping.dfy ===
/**
  `groupMessagesByDate` of frontend/src/App.jsx: a room's messages interleaved with date
  separators, one before each message whose day differs from the previous message's day.
  The day of a timestamp (`getDateKey`, which reads the local calendar) is a parameter.
*/
module MessageGrouping {
  import opened RoomTable

  /** A rendered row: a date separator or one of the room's messages, tagged with its input position. */
  datatype Item =
    | Separator(date: string, dateKey: string, index: nat)
    | Message(event: Event, index: nat)

  /** `getDateKey`: "" for a missing timestamp, otherwise the calendar day `day` assigns it. */
  function DateKey(day: string -> string, timestamp: string): (k: string)
    ensures timestamp == "" ==> k == ""
    ensures timestamp != "" ==> k == day(timestamp)
  {
    if timestamp == "" then "" else day(timestamp)
  }

  /** Message `i` opens a new day: it is the first message, or its day differs from its predecessor's. */
  predicate StartsDay(msgs: seq<Event>, i: nat, day: string -> string)
    requires i < |msgs|
  {
    i == 0 || DateKey(day, msgs[i].timestamp) != DateKey(day, msgs[i - 1].timestamp)
  }

  /**
    When every calendar day has a non-empty key, an undated message next to a dated one always
    opens a new day, so it gets a separator of its own.
  */
  lemma UndatedStartsDay(msgs: seq<Event>, i: nat, day: string -> string)
    requires forall t :: day(t) != ""
    requires 0 < i < |msgs| && (msgs[i].timestamp == "" <==> msgs[i - 1].timestamp != "")
    ensures StartsDay(msgs, i, day)
  {
  }

  /** The rows contributed by message `i`: possibly a separator, then the message itself. */
  function RowsFor(msgs: seq<Event>, i: nat, day: string -> string): seq<Item>
    requires i < |msgs|
  {
    var m := Message(msgs[i], i);
    if StartsDay(msgs, i, day)
    then [Separator(msgs[i].timestamp, DateKey(day, msgs[i].timestamp), i), m]
    else [m]
  }

  /** The reference grouping, built message by message from the front. */
  function Grouped(msgs: seq<Event>, day: string -> string): seq<Item>
    decreases |msgs|
  {
    if msgs == [] then []
    else Grouped(msgs[..|msgs| - 1], day) + RowsFor(msgs, |msgs| - 1, day)
  }

  /** How many messages open a new day (the first one always does). */
  function DayStarts(msgs: seq<Event>, day: string -> string): nat
    decreases |msgs|
  {
    if msgs == [] then 0
    else DayStarts(msgs[..|msgs| - 1], day) + if StartsDay(msgs, |msgs| - 1, day) then 1 else 0
  }

  /** The messages of a row sequence, separators removed. */
  function Messages(g: seq<Item>): seq<Event>
    decreases |g|
  {
    if g == [] then []
    else Messages(g[..|g| - 1]) + if g[|g| - 1].Message? then [g[|g| - 1].event] else []
  }

  /** Every separator is followed by the message it announces, and that message opens a day. */
  predicate SeparatorsPlaced(g: seq<Item>, msgs: seq<Event>, day: string -> string) {
    forall j :: 0 <= j < |g| && g[j].Separator? ==>
      && j + 1 < |g| && g[j + 1].Message? && g[j + 1].index == g[j].index
      && g[j].index < |msgs| && StartsDay(msgs, g[j].index, day)
      && g[j].dateKey == DateKey(day, msgs[g[j].index].timestamp)
      && g[j].date == msgs[g[j].index].timestamp
  }

  /** A message row is preceded by a separator exactly when its message opens a day. */
  predicate MessagesMarked(g: seq<Item>, msgs: seq<Event>, day: string -> string) {
    forall j {:trigger g[j]} :: 0 <= j < |g| && g[j].Message? ==>
      && g[j].index < |msgs| && g[j].event == msgs[g[j].index]
      && ((j > 0 && g[j - 1].Separator?) <==> StartsDay(msgs, g[j].index, day))
  }

  /** No two separators are adjacent. */
  predicate NoAdjacentSeparators(g: seq<Item>) {
    forall j :: 0 <= j < |g| - 1 ==> !(g[j].Separator? && g[j + 1].Separator?)
  }

  lemma {:induction false} MessagesAppend(a: seq<Item>, b: seq<Item>)
    ensures Messages(a + b) == Messages(a) + Messages(b)
    decreases |b|
  {
    if b == [] {
      assert a + b == a;
    } else {
      var b' := b[..|b| - 1];
      var last := b[|b| - 1];
      var tail := if last.Message? then [last.event] else [];
      assert (a + b)[..|a + b| - 1] == a + b';
      assert (a + b)[|a + b| - 1] == last;
      assert Messages(a + b) == Messages(a + b') + tail;
      assert Messages(b) == Messages(b') + tail;
      MessagesAppend(a, b');
    }
  }

  /** The rows of one message hold exactly that message. */
  lemma {:induction false} MessagesOfRows(msgs: seq<Event>, i: nat, day: string -> string)
    requires i < |msgs|
    ensures Messages(RowsFor(msgs, i, day)) == [msgs[i]]
  {
    var rows := RowsFor(msgs, i, day);
    if |rows| == 2 {
      assert rows[..1] == [rows[0]];
      assert [rows[0]][..0] == [];
      assert Messages([rows[0]]) == [];
    } else {
      assert rows[..0] == [];
    }
  }

  /** Removing the separators gives back the messages, in order. */
  lemma {:induction false} MessagesOfGrouped(msgs: seq<Event>, day: string -> string)
    ensures Messages(Grouped(msgs, day)) == msgs
    decreases |msgs|
  {
    if msgs != [] {
      var n := |msgs| - 1;
      var prev := Grouped(msgs[..n], day);
      var rows := RowsFor(msgs, n, day);
      assert Grouped(msgs, day) == prev + rows;
      MessagesOfGrouped(msgs[..n], day);
      MessagesAppend(prev, rows);
      MessagesOfRows(msgs, n, day);
      assert msgs[..n] + [msgs[n]] == msgs;
    }
  }

  /** Every message adds one row, and every message that opens a day adds one more. */
  lemma {:induction false} GroupedLength(msgs: seq<Event>, day: string -> string)
    ensures |Grouped(msgs, day)| == |msgs| + DayStarts(msgs, day)
    decreases |msgs|
  {
    if msgs != [] {
      GroupedLength(msgs[..|msgs| - 1], day);
    }
  }

  /** Opening a day depends only on the message and its predecessor, so a prefix agrees with the whole. */
  lemma {:induction false} StartsDayPrefix(msgs: seq<Event>, n: nat, i: nat, day: string -> string)
    requires i < n <= |msgs|
    ensures StartsDay(msgs[..n], i, day) == StartsDay(msgs, i, day)
  {
  }

  /** A non-empty grouping ends with a message row. */
  lemma {:induction false} GroupedEndsWithMessage(msgs: seq<Event>, day: string -> string)
    requires msgs != []
    ensures var g := Grouped(msgs, day); g[|g| - 1] == Message(msgs[|msgs| - 1], |msgs| - 1)
  {
  }

  /** Separators sit exactly before the messages that open a day, and announce that day. */
  lemma {:induction false} GroupedPlacement(msgs: seq<Event>, day: string -> string)
    ensures SeparatorsPlaced(Grouped(msgs, day), msgs, day)
    ensures MessagesMarked(Grouped(msgs, day), msgs, day)
    decreases |msgs|
  {
    if msgs != [] {
      var n := |msgs| - 1;
      GroupedPlacement(msgs[..n], day);
      if n > 0 {
        GroupedEndsWithMessage(msgs[..n], day);
      }
      SeparatorsPlacedStep(msgs, day);
      MessagesMarkedStep(msgs, day);
    }
  }

  /** The separator half of `GroupedPlacement` for one more message, given it for the prefix. */
  lemma {:induction false} SeparatorsPlacedStep(msgs: seq<Event>, day: string -> string)
    requires msgs != []
    requires SeparatorsPlaced(Grouped(msgs[..|msgs| - 1], day), msgs[..|msgs| - 1], day)
    ensures SeparatorsPlaced(Grouped(msgs, day), msgs, day)
  {
    var n := |msgs| - 1;
    var prev := Grouped(msgs[..n], day);
    var rows := RowsFor(msgs, n, day);
    var g := Grouped(msgs, day);
    assert g == prev + rows;
    forall j | 0 <= j < |g| && g[j].Separator?
      ensures && j + 1 < |g| && g[j + 1].Message? && g[j + 1].index == g[j].index
              && g[j].index < |msgs| && StartsDay(msgs, g[j].index, day)
              && g[j].dateKey == DateKey(day, msgs[g[j].index].timestamp)
              && g[j].date == msgs[g[j].index].timestamp
    {
      if j < |prev| {
        var i := prev[j].index;
        assert g[j] == prev[j] && prev[j].Separator?;
        assert j + 1 < |prev| && g[j + 1] == prev[j + 1];
        assert msgs[..n][i] == msgs[i];
        StartsDayPrefix(msgs, n, i, day);
      } else {
        assert g[j] == rows[j - |prev|];
      }
    }
  }

  /** The message half of `GroupedPlacement` for one more message, given it for the prefix. */
  lemma {:induction false} MessagesMarkedStep(msgs: seq<Event>, day: string -> string)
    requires msgs != []
    requires MessagesMarked(Grouped(msgs[..|msgs| - 1], day), msgs[..|msgs| - 1], day)
    requires |msgs| > 1 ==>
      var p := Grouped(msgs[..|msgs| - 1], day); p != [] && p[|p| - 1].Message?
    ensures MessagesMarked(Grouped(msgs, day), msgs, day)
  {
    var n := |msgs| - 1;
    var prev := Grouped(msgs[..n], day);
    var rows := RowsFor(msgs, n, day);
    var g := Grouped(msgs, day);
    assert g == prev + rows;
    assert MessagesMarked(prev, msgs[..n], day);
    forall j | 0 <= j < |g| && g[j].Message?
      ensures && g[j].index < |msgs| && g[j].event == msgs[g[j].index]
              && ((j > 0 && g[j - 1].Separator?) <==> StartsDay(msgs, g[j].index, day))
    {
      if j < |prev| {
        var i := prev[j].index;
        assert g[j] == prev[j] && prev[j].Message?;
        assert j > 0 ==> g[j - 1] == prev[j - 1];
        assert msgs[..n][i] == msgs[i];
        StartsDayPrefix(msgs, n, i, day);
      } else if StartsDay(msgs, n, day) {
        assert rows == [Separator(msgs[n].timestamp, DateKey(day, msgs[n].timestamp), n), Message(msgs[n], n)];
        assert j == |prev| + 1;
        assert g[j] == rows[1] && g[j - 1] == rows[0];
      } else {
        assert rows == [Message(msgs[n], n)];
        assert n > 0 && j == |prev| && j > 0;
        assert g[j] == rows[0];
        assert g[j - 1] == prev[|prev| - 1];
      }
    }
  }

  /** Separators never come two in a row. */
  lemma {:induction false} NoAdjacentSeparatorsInGrouped(msgs: seq<Event>, day: string -> string)
    ensures NoAdjacentSeparators(Grouped(msgs, day))
  {
    GroupedPlacement(msgs, day);
  }

  /** The grouping of one more message extends the grouping of the prefix by that message's rows. */
  lemma {:induction false} GroupedSnoc(msgs: seq<Event>, i: nat, day: string -> string)
    requires i < |msgs|
    ensures Grouped(msgs[..i + 1], day) == Grouped(msgs[..i], day) + RowsFor(msgs, i, day)
  {
    assert msgs[..i + 1][..i] == msgs[..i];
    assert RowsFor(msgs[..i + 1], i, day) == RowsFor(msgs, i, day) by {
      StartsDayPrefix(msgs, i + 1, i, day);
    }
  }

  /** Everything the date grouping promises, gathered for one call site. */
  lemma {:induction false} GroupedFacts(msgs: seq<Event>, day: string -> string)
    ensures Messages(Grouped(msgs, day)) == msgs
    ensures |Grouped(msgs, day)| == |msgs| + DayStarts(msgs, day)
    ensures NoAdjacentSeparators(Grouped(msgs, day))
    ensures SeparatorsPlaced(Grouped(msgs, day), msgs, day)
    ensures MessagesMarked(Grouped(msgs, day), msgs, day)
  {
    MessagesOfGrouped(msgs, day);
    GroupedLength(msgs, day);
    GroupedPlacement(msgs, day);
    NoAdjacentSeparatorsInGrouped(msgs, day);
  }

  /**
    `groupMessagesByDate`: walks the messages once, remembering the last day seen (none at the
    start, so the first message always gets a separator).
  */
  method GroupByDate(msgs: seq<Event>, day: string -> string) returns (grouped: seq<Item>)
    ensures grouped == Grouped(msgs, day)
    ensures Messages(grouped) == msgs
    ensures |grouped| == |msgs| + DayStarts(msgs, day)
    ensures NoAdjacentSeparators(grouped)
    ensures SeparatorsPlaced(grouped, msgs, day) && MessagesMarked(grouped, msgs, day)
  {
    grouped := [];
    var currentDate: Common.Option<string> := Common.None;
    for i := 0 to |msgs|
      invariant grouped == Grouped(msgs[..i], day)
      invariant currentDate == if i == 0 then Common.None else Common.Some(DateKey(day, msgs[i - 1].timestamp))
    {
      var msgDate := DateKey(day, msgs[i].timestamp);
      GroupedSnoc(msgs, i, day);
      if Common.Some(msgDate) != currentDate {
        currentDate := Common.Some(msgDate);
        grouped := grouped + [Separator(msgs[i].timestamp, msgDate, i)];
      }
      grouped := grouped + [Message(msgs[i], i)];
    }
    assert msgs[..|msgs|] == msgs;
    GroupedFacts(msgs, day);
  }

  /** Three messages over two days get two separators, one before each day's first message. */
  lemma {:induction false} TwoDaysExample()
    ensures var day := (ts: string) => if ts == "day2@09:00" then "day2" else "day1";
      var m1 := Event("message", "a", "x", "", "day1@10:00");
      var m2 := Event("message", "b", "y", "", "day1@11:00");
      var m3 := Event("message", "a", "z", "", "day2@09:00");
      Grouped([m1, m2, m3], day)
        == [Separator("day1@10:00", "day1", 0), Message(m1, 0), Message(m2, 1),
            Separator("day2@09:00", "day2", 2), Message(m3, 2)]
  {
    var day := (ts: string) => if ts == "day2@09:00" then "day2" else "day1";
    var m1 := Event("message", "a", "x", "", "day1@10:00");
    var m2 := Event("message", "b", "y", "", "day1@11:00");
    var m3 := Event("message", "a", "z", "", "day2@09:00");
    var msgs := [m1, m2, m3];
    assert msgs[..2] == [m1, m2];
    assert [m1, m2][..1] == [m1];
    assert [m1][..0] == [];
    assert Grouped([m1], day) == [Separator("day1@10:00", "day1", 0), Message(m1, 0)];
    assert Grouped([m1, m2], day) == [Separator("day1@10:00", "day1", 0), Message(m1, 0), Message(m2, 1)];
  }
}

=== FILE: room_queries.dfy ===
/**
  The two HTTP lookups of backend/routers/room.py, read-only queries over the connection
  registry: room-code validation and the member listing.
*/
module RoomQueries {
  import opened Common
  import opened Text
  import opened ConnectionRegistry

  /** `{valid, room_code, active}`; `active` is present only in a positive answer. */
  datatype Validation = Validation(valid: bool, roomCode: string, active: Option<bool>)

  /**
    `validate_room`: a code is valid exactly when it is not blank; a valid answer also says
    whether the room currently has connections.
  */
  function ValidateRoom(reg: Registry, code: string): (v: Validation)
    ensures v.roomCode == code
    ensures v.valid <==> !Blank(code)
    ensures v.valid ==> v.active == Some(code in reg.active)
    ensures !v.valid ==> v.active == None
  {
    TrimEmptyIffBlank(code);
    if code != "" && Trim(code) != "" then Validation(true, code, Some(code in reg.active))
    else Validation(false, code, None)
  }

  datatype Member = Member(username: string, active: bool)

  /** `{room_code, members, total}`. */
  datatype MemberList = MemberList(roomCode: string, members: seq<Member>, total: nat)

  /** The sockets of `room` whose record names `room`: the ones the listing reports. */
  function Present(reg: Registry, room: string): set<SocketId> {
    set ws | ws in Members(reg, room) && ws in reg.info && reg.info[ws].room == room
  }

  /**
    `get_room_members`: one active member per socket of the room whose record names that
    room, in the set's iteration order, and the count of them. `sources` says which socket
    each member came from.
  */
  method GetRoomMembers(reg: Registry, room: string) returns (r: MemberList, ghost sources: seq<SocketId>)
    ensures r.roomCode == room && r.total == |r.members|
    ensures room !in reg.active ==> r.members == [] && r.total == 0
    ensures |sources| == |r.members| && Distinct(sources)
    ensures forall ws :: ws in sources <==> ws in Present(reg, room)
    ensures forall i :: 0 <= i < |r.members| ==>
      sources[i] in reg.info && r.members[i] == Member(reg.info[sources[i]].username, true)
    ensures r.total == |Present(reg, room)|
  {
    if room !in reg.active {
      assert Present(reg, room) == {};
      return MemberList(room, [], 0), [];
    }
    var members: seq<Member> := [];
    sources := [];
    var remaining := reg.active[room];
    while remaining != {}
      invariant remaining <= reg.active[room]
      invariant |members| == |sources|
      invariant Distinct(sources)
      invariant forall ws :: ws in sources <==> ws in Present(reg, room) && ws !in remaining
      invariant forall i :: 0 <= i < |members| ==>
        sources[i] in reg.info && members[i] == Member(reg.info[sources[i]].username, true)
      decreases remaining
    {
      var ws :| ws in remaining;
      if ws in reg.info && reg.info[ws].room == room {
        DistinctAppend(sources, ws);
        members := members + [Member(reg.info[ws].username, true)];
        sources := sources + [ws];
      }
      remaining := remaining - {ws};
    }
    DistinctCardinality(sources);
    assert (set ws: SocketId | ws in sources) == Present(reg, room);
    r := MemberList(room, members, |members|);
  }

  /** On a consistent registry every socket of the room is listed, so the total is the room's size. */
  lemma TotalIsRoomSize(reg: Registry, room: string)
    requires Valid(reg)
    ensures |Present(reg, room)| == |Members(reg, room)|
  {
    assert Present(reg, room) == Members(reg, room);
  }
}

=== FILE: room_table.dfy ===
/**
  The client's room registry (the `rooms` object of frontend/src/App.jsx): a map from room
  code to that room's entry, together with the order in which the codes were inserted, which
  is the order `Object.keys` enumerates them in.
*/
module RoomTable {
  import opened Common

  /** One inbound frame as the client stores it. `message` is "" when the frame has no truthy `message` field. */
  datatype Event = Event(kind: string, username: string, content: string, message: string, timestamp: string)

  /** A room's client-side record. A field the source leaves missing reads as its default here. */
  datatype Entry = Entry(messages: seq<Event>, connected: bool, unreadCount: nat, lastMessage: Option<string>)

  /** The record a freshly joined room starts from, and what a missing record reads as. */
  const Fresh: Entry := Entry([], false, 0, None)

  /** The `rooms` object: its entries and its key order. */
  datatype Table = Table(entries: map<string, Entry>, order: seq<string>)

  const Empty: Table := Table(map[], [])

  /** `r` is `s` with some elements dropped, the rest kept in order. */
  predicate IsSubseq<T(==)>(r: seq<T>, s: seq<T>)
    decreases |s|
  {
    r == [] || (s != [] && if r[0] == s[0] then IsSubseq(r[1..], s[1..]) else IsSubseq(r, s[1..]))
  }

  /** The key order lists every key of the map exactly once. */
  predicate Valid(t: Table) {
    && Distinct(t.order)
    && (forall k :: k in t.order ==> k in t.entries)
    && (forall k :: k in t.entries ==> k in t.order)
  }

  /** The entry for `k`, or the default record when `k` is absent. */
  function Get(t: Table, k: string): (e: Entry)
    ensures k !in t.entries ==> e == Fresh
  {
    if k in t.entries then t.entries[k] else Fresh
  }

  /** `{...t, [k]: e}`: an existing key keeps its position, a new key goes last. */
  function Put(t: Table, k: string, e: Entry): (r: Table)
    requires Valid(t)
    ensures Valid(r)
    ensures k in r.entries && r.entries[k] == e
    ensures forall j :: j != k ==> (j in r.entries <==> j in t.entries)
    ensures forall j :: j != k && j in t.entries ==> r.entries[j] == t.entries[j]
    ensures k in t.entries ==> r.order == t.order
    ensures k !in t.entries ==> r.order == t.order + [k]
  {
    Table(t.entries[k := e], if k in t.entries then t.order else t.order + [k])
  }

  /** `s` with every occurrence of `k` removed. */
  function Without(s: seq<string>, k: string): (r: seq<string>)
    ensures forall x :: x in r <==> x in s && x != k
    ensures Distinct(s) ==> Distinct(r)
    ensures IsSubseq(r, s)
  {
    if s == [] then []
    else
      var rest := Without(s[1..], k);
      assert Distinct(s) ==> Distinct(s[1..]) && s[0] !in s[1..];
      if s[0] == k then
        assert rest == [] || rest[0] in rest;
        rest
      else
        assert ([s[0]] + rest)[1..] == rest;
        [s[0]] + rest
  }

  /** `delete t[k]`: the key disappears, the other keys keep their entries and relative order. */
  function Delete(t: Table, k: string): (r: Table)
    requires Valid(t)
    ensures Valid(r)
    ensures k !in r.entries
    ensures forall j :: j != k ==> (j in r.entries <==> j in t.entries)
    ensures forall j :: j != k && j in t.entries ==> r.entries[j] == t.entries[j]
    ensures r.order == Without(t.order, k)
  {
    Table(t.entries - {k}, Without(t.order, k))
  }

  /** The room `k` is connected and is not the one being skipped. */
  predicate Eligible(t: Table, skip: Option<string>, k: string) {
    skip != Some(k) && k in t.entries && t.entries[k].connected
  }

  /** `keys.filter(k => k !== skip && t[k]?.connected)`. */
  function ConnectedKeys(t: Table, keys: seq<string>, skip: Option<string>): (r: seq<string>)
    ensures forall x :: x in r <==> x in keys && Eligible(t, skip, x)
    ensures Distinct(keys) ==> Distinct(r)
    ensures IsSubseq(r, keys)
  {
    if keys == [] then []
    else
      var rest := ConnectedKeys(t, keys[1..], skip);
      assert Distinct(keys) ==> Distinct(keys[1..]) && keys[0] !in keys[1..];
      if Eligible(t, skip, keys[0]) then
        assert ([keys[0]] + rest)[1..] == rest;
        [keys[0]] + rest
      else
        assert rest == [] || rest[0] in rest;
        rest
  }

  /** The first entry of a filtered key list is the first key of the list that passes the filter. */
  lemma {:induction false} ConnectedKeysHead(t: Table, keys: seq<string>, skip: Option<string>)
    requires ConnectedKeys(t, keys, skip) != []
    ensures exists i :: (0 <= i < |keys| && keys[i] == ConnectedKeys(t, keys, skip)[0]
                         && forall j :: 0 <= j < i ==> !Eligible(t, skip, keys[j]))
  {
    if !Eligible(t, skip, keys[0]) {
      ConnectedKeysHead(t, keys[1..], skip);
      var i :| 0 <= i < |keys[1..]| && keys[1..][i] == ConnectedKeys(t, keys[1..], skip)[0]
        && forall j :: 0 <= j < i ==> !Eligible(t, skip, keys[1..][j]);
      assert keys[i + 1] == ConnectedKeys(t, keys, skip)[0];
      forall j | 0 <= j < i + 1
        ensures !Eligible(t, skip, keys[j])
      {
        if j > 0 {
          assert keys[j] == keys[1..][j - 1];
        }
      }
    }
  }

  /**
    Which room takes the focus when `leaving` goes away: the first connected room other than
    `leaving` in key order, or none at all.
  */
  function Successor(t: Table, leaving: string): (r: Option<string>)
    ensures r.None? <==> forall k :: k in t.order ==> !Eligible(t, Some(leaving), k)
    ensures r.Some? ==> Eligible(t, Some(leaving), r.value) && r.value in t.order
    ensures r.Some? ==> exists i :: (0 <= i < |t.order| && t.order[i] == r.value
                                     && forall j :: 0 <= j < i ==> !Eligible(t, Some(leaving), t.order[j]))
  {
    var others := ConnectedKeys(t, t.order, Some(leaving));
    if others == [] then None
    else
      assert others[0] in others;
      ConnectedKeysHead(t, t.order, Some(leaving));
      Some(others[0])
  }

  /** The code the focus moves to: the successor, or "" when there is none. */
  function FocusAfter(t: Table, leaving: string): (r: string)
    ensures r == "" || Eligible(t, Some(leaving), r)
    ensures (forall k :: k in t.order ==> !Eligible(t, Some(leaving), k)) ==> r == ""
    ensures (exists k :: k in t.order && Eligible(t, Some(leaving), k)) ==>
      && Eligible(t, Some(leaving), r)
      && exists i :: (0 <= i < |t.order| && t.order[i] == r
                      && forall j :: 0 <= j < i ==> !Eligible(t, Some(leaving), t.order[j]))
  {
    Successor(t, leaving).GetOr("")
  }
}

=== FILE: session.dfy ===
/**
  The client session of frontend/src/App.jsx as pure transitions: joining a room
  (`connectToRoom`), the four socket callbacks (`onopen`, `onmessage`, `onerror`, `onclose`),
  `selectRoom`, `leaveRoom` and the `sendMessage` guard.

  The source keeps the focused room twice: the React state `currentRoom`, which the page
  renders, and the mirror `currentRoomRef.current`, which the socket callbacks read. They are
  the fields `current` and `focusRef` here. Every transition that moves the focus writes both,
  except the already-connected branch of `connectToRoom`, which writes only `current`.
*/
module Session {
  import opened Common
  import opened Text
  import opened RoomTable

  /** The client's state. `sockets` holds the room codes that have an entry in `wsRefs.current`. */
  datatype Client = Client(
    rooms: Table,
    current: string,
    focusRef: string,
    sockets: set<string>,
    urlCode: string,
    currentUsername: string)

  predicate Valid(c: Client) {
    RoomTable.Valid(c.rooms)
  }

  /** The state after mounting: nothing joined, and the `?room=` parameter remembered as the link's code. */
  function Start(urlRoom: Option<string>): (c: Client)
    ensures Valid(c) && c.rooms.entries == map[] && c.current == "" && c.focusRef == ""
    ensures c.urlCode == urlRoom.GetOr("") && c.sockets == {} && c.currentUsername == ""
  {
    Client(Empty, "", "", {}, urlRoom.GetOr(""), "")
  }

  // ---------------------------------------------------------------------------
  // Inbound events (ws.onmessage)
  // ---------------------------------------------------------------------------

  /** Longest preview the sidebar is given for a chat message. */
  const PreviewLimit: nat := 50

  /** The text a chat message is summarised by before truncation: `username: content`. */
  function ChatLine(ev: Event): string {
    ev.username + ": " + ev.content
  }

  /**
    The room's new preview after `ev`: a chat message gives its first fifty characters of
    `username: content`; any other event gives its `message` text when it has one and
    otherwise keeps the previous preview.
  */
  function Preview(ev: Event, previous: Option<string>): (p: Option<string>)
    ensures ev.kind == "message" ==> p.Some? && p.value <= ChatLine(ev)
    ensures ev.kind == "message" ==>
      |p.value| == if |ChatLine(ev)| <= PreviewLimit then |ChatLine(ev)| else PreviewLimit
    ensures ev.kind != "message" && ev.message != "" ==> p == Some(ev.message)
    ensures ev.kind != "message" && ev.message == "" ==> p == previous
  {
    if ev.kind == "message" then Some(Take(ChatLine(ev), PreviewLimit))
    else if ev.message != "" then Some(ev.message)
    else previous
  }

  /**
    One inbound event for room `code`. The event is appended to the room's messages (an absent
    room is re-created around it), the preview is recomputed, and the unread count is reset when
    the room is the one the callbacks consider focused and bumped otherwise, whatever the event's kind.
  */
  function Receive(c: Client, code: string, ev: Event): (r: Client)
    requires Valid(c)
    ensures Valid(r)
    ensures code in r.rooms.entries
    ensures r.rooms.entries[code].messages == Get(c.rooms, code).messages + [ev]
    ensures code !in c.rooms.entries ==> r.rooms.entries[code].messages == [ev]
    ensures r.rooms.entries[code].connected == Get(c.rooms, code).connected
    ensures r.rooms.entries[code].unreadCount
         == if code == c.focusRef then 0 else Get(c.rooms, code).unreadCount + 1
    ensures r.rooms.entries[code].lastMessage == Preview(ev, Get(c.rooms, code).lastMessage)
    ensures forall k :: k != code ==> (k in r.rooms.entries <==> k in c.rooms.entries)
    ensures forall k :: k != code && k in c.rooms.entries ==> r.rooms.entries[k] == c.rooms.entries[k]
    ensures r.current == c.current && r.focusRef == c.focusRef && r.sockets == c.sockets
    ensures r.urlCode == c.urlCode && r.currentUsername == c.currentUsername
    ensures r.rooms.order == if code in c.rooms.entries then c.rooms.order else c.rooms.order + [code]
  {
    var before := Get(c.rooms, code);
    var unread := if code == c.focusRef then 0 else before.unreadCount + 1;
    var after := before.(messages := before.messages + [ev],
                         lastMessage := Preview(ev, before.lastMessage),
                         unreadCount := unread);
    c.(rooms := Put(c.rooms, code, after))
  }

  /** A run of inbound events for one room, delivered in order. */
  function ReceiveAll(c: Client, code: string, evs: seq<Event>): (r: Client)
    requires Valid(c)
    ensures Valid(r)
    decreases |evs|
  {
    if evs == [] then c
    else ReceiveAll(Receive(c, code, evs[0]), code, evs[1..])
  }

  /**
    While a room is not the focused one, a run of events adds one unread per event and
    appends them in arrival order; the other rooms are untouched.
  */
  lemma ReceiveAllCounts(c: Client, code: string, evs: seq<Event>)
    requires Valid(c) && code != c.focusRef
    ensures var r := ReceiveAll(c, code, evs);
      && Get(r.rooms, code).unreadCount == Get(c.rooms, code).unreadCount + |evs|
      && Get(r.rooms, code).messages == Get(c.rooms, code).messages + evs
      && r.focusRef == c.focusRef
      && forall k :: k != code ==> Get(r.rooms, k) == Get(c.rooms, k)
  {
    ReceiveAllTarget(c, code, evs);
    ReceiveAllOthers(c, code, evs);
  }

  lemma {:induction false} ReceiveAllTarget(c: Client, code: string, evs: seq<Event>)
    requires Valid(c) && code != c.focusRef
    ensures var r := ReceiveAll(c, code, evs);
      && Get(r.rooms, code).unreadCount == Get(c.rooms, code).unreadCount + |evs|
      && Get(r.rooms, code).messages == Get(c.rooms, code).messages + evs
      && r.focusRef == c.focusRef
    decreases |evs|
  {
    if evs != [] {
      var c1 := Receive(c, code, evs[0]);
      var r := ReceiveAll(c1, code, evs[1..]);
      assert ReceiveAll(c, code, evs) == r;
      ReceiveOne(c, code, evs[0]);
      ReceiveAllTarget(c1, code, evs[1..]);
      TargetStep(Get(c.rooms, code), Get(c1.rooms, code), Get(r.rooms, code), evs);
    }
  }

  /** Chaining one received event with the rest of the run. */
  lemma TargetStep(e: Entry, e1: Entry, er: Entry, evs: seq<Event>)
    requires evs != []
    requires e1.unreadCount == e.unreadCount + 1 && e1.messages == e.messages + [evs[0]]
    requires er.unreadCount == e1.unreadCount + |evs[1..]| && er.messages == e1.messages + evs[1..]
    ensures er.unreadCount == e.unreadCount + |evs| && er.messages == e.messages + evs
  {
    assert [evs[0]] + evs[1..] == evs;
  }

  lemma {:induction false} ReceiveAllOthers(c: Client, code: string, evs: seq<Event>)
    requires Valid(c)
    ensures forall k :: k != code ==> Get(ReceiveAll(c, code, evs).rooms, k) == Get(c.rooms, k)
    decreases |evs|
  {
    if evs != [] {
      var c1 := Receive(c, code, evs[0]);
      assert ReceiveAll(c, code, evs) == ReceiveAll(c1, code, evs[1..]);
      ReceiveAllOthers(c1, code, evs[1..]);
      forall k | k != code
        ensures Get(c1.rooms, k) == Get(c.rooms, k)
      {
      }
    }
  }

  /** One event for a room that is not focused, seen through `Get`. */
  lemma ReceiveOne(c: Client, code: string, ev: Event)
    requires Valid(c) && code != c.focusRef
    ensures var r := Receive(c, code, ev);
      && Valid(r)
      && Get(r.rooms, code).unreadCount == Get(c.rooms, code).unreadCount + 1
      && Get(r.rooms, code).messages == Get(c.rooms, code).messages + [ev]
      && r.focusRef == c.focusRef
      && forall k :: k != code ==> Get(r.rooms, k) == Get(c.rooms, k)
  {
  }

  // ---------------------------------------------------------------------------
  // Joining (connectToRoom and ws.onopen)
  // ---------------------------------------------------------------------------

  /** What the room-validation request answered: valid, invalid, or it failed. */
  datatype Verdict = Accepted | Rejected | Unreachable

  /** How a join attempt ended before any socket event. */
  datatype JoinOutcome =
    | NeedUsername       // "Please enter your username"
    | NeedRoomCode       // "Please enter a room code"
    | Refocused          // already connected: focus moves, nothing is opened
    | InvalidRoom        // the server said the code is not valid
    | ValidationFailed   // the validation request itself failed
    | Opening(code: string)  // a socket was created for `code`

  datatype Joined = Joined(client: Client, outcome: JoinOutcome)

  /** Validation is skipped only for the exact code the shared link supplied. */
  predicate NeedsValidation(code: string, urlCode: string) {
    urlCode == "" || code != urlCode
  }

  /**
    `connectToRoom`: the guards in source order, then the validation request (answered by
    `verdict`) unless the code came from the link, then a fresh disconnected entry for the room.
  */
  function Join(c: Client, username: string, codeInput: string, verdict: Verdict): (r: Joined)
    requires Valid(c)
    ensures Valid(r.client)
    ensures Blank(username) ==> r == Joined(c, NeedUsername)
    ensures !Blank(username) && Blank(codeInput) ==> r == Joined(c, NeedRoomCode)
    ensures r.outcome == NeedUsername ==> Blank(username)
    ensures r.outcome == NeedRoomCode ==> !Blank(username) && Blank(codeInput)
    ensures !Blank(username) && !Blank(codeInput) && Get(c.rooms, Trim(codeInput)).connected ==>
      r == Joined(c.(current := Trim(codeInput)), Refocused)
    ensures (&& !Blank(username) && !Blank(codeInput) && !Get(c.rooms, Trim(codeInput)).connected
             && NeedsValidation(Trim(codeInput), c.urlCode)) ==>
      && (verdict == Rejected ==> r == Joined(c, InvalidRoom))
      && (verdict == Unreachable ==> r == Joined(c, ValidationFailed))
    ensures r.outcome in {NeedUsername, NeedRoomCode, InvalidRoom, ValidationFailed} ==> r.client == c
    ensures r.outcome == Refocused ==>
      var code := Trim(codeInput);
      && code in c.rooms.entries && c.rooms.entries[code].connected
      && r.client == c.(current := code)
    ensures r.outcome in {InvalidRoom, ValidationFailed} ==>
      NeedsValidation(Trim(codeInput), c.urlCode) && verdict != Accepted
    ensures r.outcome.Opening? ==>
      var code := r.outcome.code;
      && code == Trim(codeInput) && code != ""
      && (NeedsValidation(code, c.urlCode) ==> verdict == Accepted)
      && !Get(c.rooms, code).connected
      && code in r.client.rooms.entries && r.client.rooms.entries[code] == Fresh
      && (forall k :: k != code ==> (k in r.client.rooms.entries <==> k in c.rooms.entries))
      && (forall k :: k != code && k in c.rooms.entries ==> r.client.rooms.entries[k] == c.rooms.entries[k])
      && r.client.current == c.current && r.client.focusRef == c.focusRef && r.client.sockets == c.sockets
      && r.client.urlCode == c.urlCode && r.client.currentUsername == c.currentUsername
      && r.client.rooms.order == if code in c.rooms.entries then c.rooms.order else c.rooms.order + [code]
    ensures (&& !Blank(username) && !Blank(codeInput) && !Get(c.rooms, Trim(codeInput)).connected
             && (!NeedsValidation(Trim(codeInput), c.urlCode) || verdict == Accepted)) ==>
      r.outcome == Opening(Trim(codeInput))
  {
    var code := Trim(codeInput);
    TrimEmptyIffBlank(username);
    TrimEmptyIffBlank(codeInput);
    if Trim(username) == [] then Joined(c, NeedUsername)
    else if code == [] then Joined(c, NeedRoomCode)
    else if code in c.rooms.entries && c.rooms.entries[code].connected then
      Joined(c.(current := code), Refocused)
    else if NeedsValidation(code, c.urlCode) && verdict == Rejected then Joined(c, InvalidRoom)
    else if NeedsValidation(code, c.urlCode) && verdict == Unreachable then Joined(c, ValidationFailed)
    else Joined(c.(rooms := Put(c.rooms, code, Fresh)), Opening(code))
  }

  /**
    `ws.onopen` for room `code`, opened as `username`: the room is marked connected (its
    messages, unread count and preview kept), takes the focus, gets its socket recorded, the
    link's code is forgotten and the session's display name becomes `username`.
  */
  function Open(c: Client, code: string, username: string): (r: Client)
    requires Valid(c)
    ensures Valid(r)
    ensures code in r.rooms.entries && r.rooms.entries[code] == Get(c.rooms, code).(connected := true)
    ensures forall k :: k != code ==> (k in r.rooms.entries <==> k in c.rooms.entries)
    ensures forall k :: k != code && k in c.rooms.entries ==> r.rooms.entries[k] == c.rooms.entries[k]
    ensures r.current == code && r.focusRef == code && r.sockets == c.sockets + {code}
    ensures r.urlCode == "" && r.currentUsername == username
    ensures r.rooms.order == if code in c.rooms.entries then c.rooms.order else c.rooms.order + [code]
  {
    var e := Get(c.rooms, code).(connected := true);
    c.(rooms := Put(c.rooms, code, e), current := code, focusRef := code,
       sockets := c.sockets + {code}, urlCode := "", currentUsername := username)
  }

  // ---------------------------------------------------------------------------
  // Failure and close (ws.onerror, ws.onclose)
  // ---------------------------------------------------------------------------

  /** `ws.onerror`: the room's entry is dropped; the focus and the sockets are left alone. */
  function Fail(c: Client, code: string): (r: Client)
    requires Valid(c)
    ensures Valid(r)
    ensures code !in r.rooms.entries
    ensures forall k :: k != code ==> (k in r.rooms.entries <==> k in c.rooms.entries)
    ensures forall k :: k != code && k in c.rooms.entries ==> r.rooms.entries[k] == c.rooms.entries[k]
    ensures r.current == c.current && r.focusRef == c.focusRef && r.sockets == c.sockets
    ensures r.urlCode == c.urlCode && r.currentUsername == c.currentUsername
    ensures r.rooms.order == RoomTable.Without(c.rooms.order, code)
  {
    c.(rooms := Delete(c.rooms, code))
  }

  /**
    `ws.onclose`: an existing entry is marked disconnected and keeps its history; no entry is
    created. When the closing room held the focus, the focus passes to the first other connected
    room in key order, or to no room, and that successor's unread count is left as it was.
  */
  function Close(c: Client, code: string): (r: Client)
    requires Valid(c)
    ensures Valid(r)
    ensures forall k :: k in r.rooms.entries <==> k in c.rooms.entries
    ensures code in c.rooms.entries ==>
      r.rooms.entries[code] == c.rooms.entries[code].(connected := false)
    ensures forall k :: k != code && k in c.rooms.entries ==> r.rooms.entries[k] == c.rooms.entries[k]
    ensures r.sockets == c.sockets - {code}
    ensures c.focusRef != code ==> r.current == c.current && r.focusRef == c.focusRef
    ensures c.focusRef == code ==> r.current == r.focusRef == FocusAfter(c.rooms, code)
    ensures r.urlCode == c.urlCode && r.currentUsername == c.currentUsername
    ensures r.rooms.order == c.rooms.order
  {
    var rooms := if code in c.rooms.entries
      then Put(c.rooms, code, c.rooms.entries[code].(connected := false))
      else c.rooms;
    assert forall k :: Eligible(rooms, Some(code), k) <==> Eligible(c.rooms, Some(code), k);
    assert FocusAfter(rooms, code) == FocusAfter(c.rooms, code) by {
      SuccessorIgnoresLeaving(rooms, c.rooms, code);
    }
    if c.focusRef == code then
      var next := FocusAfter(rooms, code);
      c.(rooms := rooms, current := next, focusRef := next, sockets := c.sockets - {code})
    else
      c.(rooms := rooms, sockets := c.sockets - {code})
  }

  /** Tables that agree on every room but `leaving`, in the same order, choose the same successor. */
  lemma SuccessorIgnoresLeaving(a: Table, b: Table, leaving: string)
    requires a.order == b.order
    requires forall k :: Eligible(a, Some(leaving), k) <==> Eligible(b, Some(leaving), k)
    ensures Successor(a, leaving) == Successor(b, leaving)
  {
    ConnectedKeysAgree(a, b, a.order, Some(leaving));
  }

  lemma {:induction false} ConnectedKeysAgree(a: Table, b: Table, keys: seq<string>, skip: Option<string>)
    requires forall k :: Eligible(a, skip, k) <==> Eligible(b, skip, k)
    ensures ConnectedKeys(a, keys, skip) == ConnectedKeys(b, keys, skip)
  {
    if keys != [] {
      ConnectedKeysAgree(a, b, keys[1..], skip);
    }
  }

  // ---------------------------------------------------------------------------
  // Leaving and selecting (leaveRoom, selectRoom)
  // ---------------------------------------------------------------------------

  /**
    `leaveRoom`: the room's socket is forgotten and its entry deleted. When it held the focus,
    the focus passes to the first other connected room of the table as it was before the
    deletion, or to no room; otherwise the focus is unchanged.
  */
  function Leave(c: Client, code: string): (r: Client)
    requires Valid(c)
    ensures Valid(r)
    ensures code !in r.rooms.entries
    ensures forall k :: k != code ==> (k in r.rooms.entries <==> k in c.rooms.entries)
    ensures forall k :: k != code && k in c.rooms.entries ==> r.rooms.entries[k] == c.rooms.entries[k]
    ensures r.sockets == c.sockets - {code}
    ensures c.focusRef != code ==> r.current == c.current && r.focusRef == c.focusRef
    ensures c.focusRef == code ==> r.current == r.focusRef == FocusAfter(c.rooms, code)
    ensures r.urlCode == c.urlCode && r.currentUsername == c.currentUsername
    ensures r.rooms.order == RoomTable.Without(c.rooms.order, code)
  {
    var rooms := Delete(c.rooms, code);
    if c.focusRef == code then
      var next := FocusAfter(c.rooms, code);
      c.(rooms := rooms, current := next, focusRef := next, sockets := c.sockets - {code})
    else
      c.(rooms := rooms, sockets := c.sockets - {code})
  }

  /** `selectRoom`: the room takes the focus and its unread count drops to zero; nothing else changes. */
  function Select(c: Client, code: string): (r: Client)
    requires Valid(c)
    ensures Valid(r)
    ensures r.current == code && r.focusRef == code
    ensures code in r.rooms.entries && r.rooms.entries[code].unreadCount == 0
    ensures var e := Get(c.rooms, code); var e' := r.rooms.entries[code];
      e'.messages == e.messages && e'.connected == e.connected && e'.lastMessage == e.lastMessage
    ensures forall k :: k != code ==> (k in r.rooms.entries <==> k in c.rooms.entries)
    ensures forall k :: k != code && k in c.rooms.entries ==> r.rooms.entries[k] == c.rooms.entries[k]
    ensures r.sockets == c.sockets
    ensures r.urlCode == c.urlCode && r.currentUsername == c.currentUsername
    ensures r.rooms.order == if code in c.rooms.entries then c.rooms.order else c.rooms.order + [code]
  {
    var e := Get(c.rooms, code).(unreadCount := 0);
    c.(rooms := Put(c.rooms, code, e), current := code, focusRef := code)
  }

  // ---------------------------------------------------------------------------
  // Sending (sendMessage)
  // ---------------------------------------------------------------------------

  /** A frame the client hands to a room's socket: the raw input, untrimmed. */
  datatype Outgoing = Outgoing(room: string, content: string)

  /**
    `sendMessage`: the input goes, as typed, to the displayed room's socket exactly when a room
    is displayed, the input is not blank, that room has a recorded socket and the socket reports
    itself open (`socketOpen`).
  */
  function Send(c: Client, input: string, socketOpen: bool): (r: Option<Outgoing>)
    ensures r.Some? <==> c.current != "" && !Blank(input) && c.current in c.sockets && socketOpen
    ensures r.Some? ==> r.value == Outgoing(c.current, input)
  {
    TrimEmptyIffBlank(input);
    if c.current == "" || Trim(input) == [] then None
    else if c.current !in c.sockets || !socketOpen then None
    else Some(Outgoing(c.current, input))
  }

  // ---------------------------------------------------------------------------
  // Properties relating several transitions
  // ---------------------------------------------------------------------------

  /** Leaving the focused room hands the focus to the only other connected room. */
  lemma LeaveToOnlyOther(c: Client, code: string, other: string)
    requires Valid(c) && c.focusRef == code && other != code
    requires other in c.rooms.entries && c.rooms.entries[other].connected
    requires forall k :: k in c.rooms.entries && c.rooms.entries[k].connected ==> k == code || k == other
    ensures Leave(c, code).current == other && Leave(c, code).focusRef == other
  {
    assert Eligible(c.rooms, Some(code), other);
  }

  /** Leaving the focused room when no other room is connected clears the focus. */
  lemma LeaveLastClearsFocus(c: Client, code: string)
    requires Valid(c) && c.focusRef == code
    requires forall k :: k in c.rooms.entries && c.rooms.entries[k].connected ==> k == code
    ensures Leave(c, code).current == "" && Leave(c, code).focusRef == ""
  {
  }

  /** The close that follows a leave finds nothing left to do. */
  lemma CloseAfterLeave(c: Client, code: string)
    requires Valid(c) && code != ""
    ensures Close(Leave(c, code), code) == Leave(c, code)
  {
    var l := Leave(c, code);
    assert l.focusRef != code;
  }

  /**
    A join that only refocuses updates the displayed room but not the callbacks' mirror, so an
    event for the displayed room still counts as unread.
  */
  lemma RefocusCountsUnread(c: Client, username: string, code: string, verdict: Verdict, ev: Event)
    requires Valid(c) && !Blank(username) && code == Trim(code) && code != ""
    requires code in c.rooms.entries && c.rooms.entries[code].connected && c.focusRef != code
    ensures var j := Join(c, username, code, verdict);
      && j.outcome == Refocused && j.client.current == code
      && Receive(j.client, code, ev).rooms.entries[code].unreadCount == c.rooms.entries[code].unreadCount + 1
  {
    TrimEmptyIffBlank(username);
    TrimEmptyIffBlank(code);
  }
}

=== FILE: sidebar.dfy ===
/**
  The derived view of frontend/src/components/RoomSidebar.jsx: which rooms are listed, the
  header's count and noun, the empty-list placeholder, and each row's preview and unread badge.
*/
module Sidebar {
  import opened Common
  import opened RoomTable
  import Session

  /** Counts above this are shown as "99+". */
  const BadgeCap: nat := 99

  /** What an unread badge reads: the count itself, or "99+". */
  datatype BadgeText = Exact(count: nat) | Overflow

  /** One listed room. */
  datatype Row = Row(code: string, active: bool, preview: Option<string>, badge: Option<BadgeText>)

  /** The sidebar: `joined` rooms, "room"/"rooms" in the header, the rows, and whether "No rooms joined" shows. */
  datatype View = View(joined: nat, noun: string, rows: seq<Row>, placeholder: bool)

  /** The listed rooms: the connected ones, in key order. */
  function JoinedRooms(t: Table): (r: seq<string>)
    requires Valid(t)
    ensures forall k :: k in r <==> k in t.entries && t.entries[k].connected
    ensures IsSubseq(r, t.order) && Distinct(r)
  {
    ConnectedKeys(t, t.order, None)
  }

  /** The header noun: singular for exactly one joined room, plural otherwise (zero included). */
  function Noun(joined: nat): (s: string)
    ensures s == "room" <==> joined == 1
    ensures s == "rooms" <==> joined != 1
  {
    "room" + if joined != 1 then "s" else ""
  }

  /** The badge text for a positive count: "99+" beyond the cap, the count itself otherwise. */
  function BadgeLabel(count: nat): (b: BadgeText)
    ensures b == Overflow <==> count > BadgeCap
    ensures b.Exact? ==> b.count == count && count <= BadgeCap
  {
    if count > BadgeCap then Overflow else Exact(count)
  }

  /** The badge of a row: shown only for a room with unread messages that is not the displayed one. */
  function Badge(e: Entry, code: string, current: string): (b: Option<BadgeText>)
    ensures b.Some? <==> e.unreadCount > 0 && code != current
    ensures b.Some? ==> b.value == BadgeLabel(e.unreadCount)
  {
    if e.unreadCount > 0 && code != current then Some(BadgeLabel(e.unreadCount)) else None
  }

  /** The preview line of a row: only a non-empty preview is rendered. */
  function PreviewLine(e: Entry): (p: Option<string>)
    ensures p.Some? <==> e.lastMessage.Some? && e.lastMessage.value != ""
    ensures p.Some? ==> p == e.lastMessage
  {
    if e.lastMessage.Some? && e.lastMessage.value != "" then e.lastMessage else None
  }

  /** The whole sidebar for a room table and the displayed room. */
  function Render(t: Table, current: string): (v: View)
    requires Valid(t)
    ensures v.joined == |v.rows|
    ensures v.noun == "room" <==> |v.rows| == 1
    ensures v.placeholder <==> forall k :: k in t.entries ==> !t.entries[k].connected
    ensures v.placeholder <==> v.rows == []
    ensures |v.rows| == |JoinedRooms(t)|
    ensures forall i :: 0 <= i < |v.rows| ==> v.rows[i].code == JoinedRooms(t)[i]
    ensures forall i :: 0 <= i < |v.rows| ==>
      var row := v.rows[i];
      && row.code in t.entries
      && row.active == (row.code == current)
      && row.badge == Badge(t.entries[row.code], row.code, current)
      && row.preview == PreviewLine(t.entries[row.code])
  {
    var codes := JoinedRooms(t);
    var rows := seq(|codes|, i requires 0 <= i < |codes| =>
      var e := t.entries[codes[i]];
      Row(codes[i], codes[i] == current, PreviewLine(e), Badge(e, codes[i], current)));
    assert codes != [] ==> codes[0] in codes;
    View(|codes|, Noun(|codes|), rows, |codes| == 0)
  }

  /**
    An event for a joined room that is neither displayed nor focused raises that room's badge,
    showing the count one higher than before.
  */
  lemma BadgeAfterReceive(c: Session.Client, code: string, ev: Event)
    requires Session.Valid(c) && code != c.current && code != c.focusRef
    requires code in c.rooms.entries && c.rooms.entries[code].connected
    ensures var r := Session.Receive(c, code, ev);
      && code in JoinedRooms(r.rooms)
      && Badge(r.rooms.entries[code], code, r.current) == Some(BadgeLabel(c.rooms.entries[code].unreadCount + 1))
  {
  }

  /** Once a room's socket opens, the room is listed and its row is the active one, without a badge. */
  lemma ListedAfterOpen(c: Session.Client, code: string, username: string)
    requires Session.Valid(c)
    ensures var r := Session.Open(c, code, username); var v := Render(r.rooms, r.current);
      && code in JoinedRooms(r.rooms)
      && !v.placeholder
      && (exists i :: 0 <= i < |v.rows| && v.rows[i].code == code && v.rows[i].active && v.rows[i].badge == None)
  {
    var r := Session.Open(c, code, username);
    var v := Render(r.rooms, r.current);
    var codes := JoinedRooms(r.rooms);
    assert code in codes;
    var i :| 0 <= i < |codes| && codes[i] == code;
    assert v.rows[i].code == code;
  }

  /** After leaving a room it is no longer listed. */
  lemma UnlistedAfterLeave(c: Session.Client, code: string)
    requires Session.Valid(c)
    ensures code !in JoinedRooms(Session.Leave(c, code).rooms)
  {
  }
}

=== FILE: text.dfy ===
/**
  Character-level helpers shared by the client and the server: whitespace trimming
  (JavaScript `String.prototype.trim`, Python `str.strip`) and prefix truncation
  (JavaScript `substring(0, n)`).
*/
module Text {

  /** The whitespace characters removed by trimming. */
  predicate IsSpace(c: char) {
    c == ' ' || c == '\t' || c == '\n' || c == '\r' || c == '\U{000B}' || c == '\U{000C}'
  }

  /** Every character of `s` is whitespace (the empty string included). */
  predicate Blank(s: string) {
    forall i :: 0 <= i < |s| ==> IsSpace(s[i])
  }

  /** `s` with its leading whitespace removed. */
  function TrimStart(s: string): (r: string)
    ensures |r| <= |s| && r == s[|s| - |r|..]
    ensures Blank(s[..|s| - |r|])
    ensures |r| > 0 ==> !IsSpace(r[0])
  {
    if |s| > 0 && IsSpace(s[0]) then TrimStart(s[1..]) else s
  }

  /** `s` with its trailing whitespace removed. */
  function TrimEnd(s: string): (r: string)
    ensures |r| <= |s| && r == s[..|r|]
    ensures Blank(s[|r|..])
    ensures |r| > 0 ==> !IsSpace(r[|r| - 1])
  {
    if |s| > 0 && IsSpace(s[|s| - 1]) then TrimEnd(s[..|s| - 1]) else s
  }

  /** `s` with leading and trailing whitespace removed: a contiguous slice of `s`. */
  function Trim(s: string): (r: string)
    ensures |r| <= |s| - LeadingSpaces(s)
    ensures r == s[LeadingSpaces(s)..LeadingSpaces(s) + |r|]
    ensures |r| > 0 ==> !IsSpace(r[0]) && !IsSpace(r[|r| - 1])
    ensures Blank(s[LeadingSpaces(s) + |r|..])
  {
    var t := TrimStart(s);
    var r := TrimEnd(t);
    SliceOfSuffix(s, |s| - |t|, t, r);
    r
  }

  /** Facts about a prefix `r` of the suffix `t` of `s` that starts at `k`. */
  lemma SliceOfSuffix(s: string, k: nat, t: string, r: string)
    requires k <= |s| && t == s[k..] && |r| <= |t| && r == t[..|r|] && Blank(t[|r|..])
    ensures |r| <= |s| - k && r == s[k..k + |r|]
    ensures Blank(s[k + |r|..])
    ensures |r| > 0 ==> r[0] == t[0]
  {
    assert s[k + |r|..] == t[|r|..];
  }

  /** How many characters `TrimStart` removes from the front of `s`. */
  function LeadingSpaces(s: string): (k: nat)
    ensures k <= |s| && Blank(s[..k])
  {
    |s| - |TrimStart(s)|
  }

  /** Removing leading whitespace empties `s` exactly when `s` is all whitespace. */
  lemma {:induction false} TrimStartEmptyIffBlank(s: string)
    ensures TrimStart(s) == [] <==> Blank(s)
  {
    if |s| > 0 && IsSpace(s[0]) {
      TrimStartEmptyIffBlank(s[1..]);
      assert Blank(s) <==> Blank(s[1..]) by {
        assert forall i :: 0 <= i < |s[1..]| ==> s[1..][i] == s[i + 1];
      }
    }
  }

  /** Removing trailing whitespace empties `s` exactly when `s` is all whitespace. */
  lemma {:induction false} TrimEndEmptyIffBlank(s: string)
    ensures TrimEnd(s) == [] <==> Blank(s)
  {
    if |s| > 0 && IsSpace(s[|s| - 1]) {
      var p := s[..|s| - 1];
      TrimEndEmptyIffBlank(p);
      assert Blank(s) <==> Blank(p) by {
        assert forall i :: 0 <= i < |p| ==> p[i] == s[i];
      }
    }
  }

  /** Trimming yields the empty string exactly when the input is all whitespace. */
  lemma TrimEmptyIffBlank(s: string)
    ensures Trim(s) == [] <==> Blank(s)
  {
    TrimStartEmptyIffBlank(s);
    TrimEndEmptyIffBlank(TrimStart(s));
  }

  /** Leading whitespace in front of a string that does not start with whitespace is all `TrimStart` removes. */
  lemma {:induction false} TrimStartPadded(a: string, t: string)
    requires Blank(a) && (t == [] || !IsSpace(t[0]))
    ensures TrimStart(a + t) == t
    decreases |a|
  {
    if a == [] {
      assert a + t == t;
    } else {
      assert (a + t)[0] == a[0];
      assert (a + t)[1..] == a[1..] + t;
      TrimStartPadded(a[1..], t);
    }
  }

  /** Trailing whitespace behind a string that does not end with whitespace is all `TrimEnd` removes. */
  lemma {:induction false} TrimEndPadded(t: string, b: string)
    requires Blank(b) && (t == [] || !IsSpace(t[|t| - 1]))
    ensures TrimEnd(t + b) == t
    decreases |b|
  {
    if b == [] {
      assert t + b == t;
    } else {
      var b' := b[..|b| - 1];
      assert (t + b)[|t + b| - 1] == b[|b| - 1];
      assert (t + b)[..|t + b| - 1] == t + b';
      TrimEndPadded(t, b');
    }
  }

  /**
    Trimming strips exactly the whitespace padding: a core that neither starts nor ends with
    whitespace, surrounded by whitespace on both sides, trims to that core.
  */
  lemma TrimPadded(a: string, m: string, b: string)
    requires Blank(a) && Blank(b)
    requires m == [] || (!IsSpace(m[0]) && !IsSpace(m[|m| - 1]))
    ensures Trim(a + m + b) == m
  {
    if m == [] {
      assert a + m + b == a + b;
      TrimEmptyIffBlank(a + b);
    } else {
      assert a + m + b == a + (m + b);
      TrimStartPadded(a, m + b);
      TrimEndPadded(m, b);
    }
  }

  /** The first `n` characters of `s`, or all of `s` when it is shorter. */
  function Take(s: string, n: nat): (r: string)
    ensures |r| <= n && r <= s
    ensures |r| == if |s| <= n then |s| else n
  {
    if |s| <= n then s else s[..n]
  }
}
